=== FILE: README.md ===
# Daily news pipeline: a Dafny model

This project models the pipeline in `src/news_scrape.py` of the trading news scraper. Each run
fetches the day's articles from a news API and asks an Azure OpenAI deployment to summarise the
headlines. It then stores the summary and the articles in Postgres. The model covers the
deterministic control logic of that file:

- **Fetcher** (`fetch.dfy`, module `Fetch`). The API-key guard, the query sent to the news API,
  and how each upstream JSON item becomes an `Article`.
- **Summariser** (`summarize.dfy`, module `Summarize`). The credential guard, the
  chat-completions URL, the prompt built from the headlines, and how the generated text is pulled
  out of the response.
- **Storage** (`storage.dfy`, module `Storage`). Each attempt is one transaction: it inserts a
  summary row, then each article with `ON CONFLICT (id) DO NOTHING`. Database errors are retried
  with exponential backoff, for at most three attempts.
- **Orchestration** (`pipeline.dfy`, module `Pipeline`). Fetch, then stop early if nothing came
  back, otherwise summarise and then store. Also the configuration read from the environment,
  with its defaults, and the `POSTGRES_INIT_SCHEMA` flag.

The supporting modules are:

- `json.dfy`: decoded JSON values and the Python semantics the code applies to them
  (truthiness, `dict.get`, `[]`, `str()`, `int()`).
- `text.dfy`: `strip`, `rstrip`, `join`, `split` and `lower`.
- `http.dfy`: requests and responses.
- `errors.dfy`: the exceptions that escape.
- `wrappers.dfy`: `Option` and `Result`.

Everything outside the code is a parameter. The news API and the model endpoint are functions
from a `Request` to an `Outcome`, whose reply is a status and a decoded body. The clock is the
`today` string. The database is an abstract `Db` value: summary rows by id, the next serial id,
article rows by article id, and a count of committed migrations. What the database does with
attempt k is given by a function `outcome(k)`: commit, a `psycopg2.Error`, or another exception.
Each stage returns its result together with what it did: the requests it sent, the attempts it
made, the waits between them, and the database afterwards. Statements like "fails before any
request" or "calls neither the summariser nor storage" are therefore stated about those records.

Some behaviours of the code that a reader might not expect, all modelled as the code has them:

- **Error types.** Missing configuration raises `ValueError`, with the code's messages. There
  is no dedicated configuration error type. A malformed completion raises Python's own `KeyError`,
  `IndexError`, `TypeError` or `AttributeError`. When the content is not a string,
  `AttributeError` escapes the `except` clause uncaught; it is still raised, just not logged.
  Storage re-raises the last `psycopg2.Error` itself.
- **Empty ids.** The code gives `id == ""` when neither `uuid` nor `id` is truthy. All such
  articles then share one storage key, so only the first of them is ever stored.
- **Text-field defaults.** The code writes `item.get(k) or ""` for each text field. Absent
  and null fields become `""`, and so does every other falsy value (`0`, `false`, `[]`, `{}`).
  Truthy values of any type are kept as they are, without conversion to a string.
- **Unretried errors.** An exception that is not a `psycopg2.Error` is not retried. One example
  is an unreadable migration file.

## Model

| member | source | states |
|---|---|---|
| `Fetch.FetchNews` | src/news_scrape.py:67-104 | An unset or empty API key raises `ValueError("NEWS_API_KEY is not set")` and sends no request. Otherwise exactly one GET goes to the news API with the documented query. An accepted reply (a status outside 400–599 with a JSON body) gives exactly the normalisation of its body, and every success comes from one. A transport, status or decoding failure is raised unchanged. |
| `Fetch.NewsQuery` | src/news_scrape.py:75-83 | The query carries the key as `api_token`, the categories, `str(limit)`, language `en`, the given date and the fixed locale list. `page` is present only when a page is given, because `requests` drops `None` values. |
| `Fetch.NewsRequest` | src/news_scrape.py:85-86 | The one request is a GET to the news API URL with no extra headers, and its query is exactly the one `Fetch.NewsQuery` describes: the key as `api_token`, the categories, `str(limit)` and the date among the parameters. |
| `Http.Receive` | src/news_scrape.py:87-88 | `raise_for_status()` then `resp.json()`, as both stages use them (also lines 149-150): a reply succeeds exactly when its status is outside 400–599 and its body is JSON, and the value is that body. A transport failure raises `RequestFailed`, a 4xx or 5xx status raises the status error, and every failure is one of those or a decoding error. |
| `Fetch.ToArticle` | src/news_scrape.py:93-101 | `id` is `str()` of the first truthy of `uuid` and `id`, else `""`. Each text field is the upstream value when truthy and `""` otherwise. `raw` is the item itself. |
| `Fetch.ToArticles` | src/news_scrape.py:90-104 | Success holds exactly when every item is a dict. It then gives one article per item, in order, the k-th built from the k-th item. Any non-dict item raises `AttributeError`. |
| `Fetch.Normalise` | src/news_scrape.py:88-104 | A body that is not a dict raises `AttributeError`. A missing `data` gives no articles. A `data` list is mapped item by item. A `data` that is null, a number or a boolean is not iterable and raises `TypeError`. A `data` string or dict gives no articles when empty, and raises `AttributeError` otherwise, because iterating it yields strings, which have no `get`. Non-empty results only come from a `data` list. |
| `Fetch.NormaliseOnePerItem` | src/news_scrape.py:90-104 | For a body whose `data` is a list of dicts, the result has one article per item. The k-th article keeps the k-th item as `raw`, and its id is the `uuid` string when that is non-empty. |
| `Fetch.MissingFieldsBecomeEmpty` | src/news_scrape.py:95-99 | An absent, null or otherwise falsy upstream text field becomes `""`. |
| `Fetch.NoIdentifierGivesEmptyId` | src/news_scrape.py:94 | An item with neither a truthy `uuid` nor a truthy `id` gets the empty id. |
| `Json.DecimalStringInjective` | src/news_scrape.py:94 | `str()` of integers is injective, so distinct integer ids give distinct storage keys. |
| `Json.Subscript` | src/news_scrape.py:153 | Python's `[]` on a JSON value succeeds exactly for a present dict key, or an in-range index (negative from the end) of a list or string. A dict with a missing key raises `KeyError`. Every failure is a `KeyError`, `IndexError` or `TypeError`. |
| `Json.PyStr` | src/news_scrape.py:94 | `str()` of a string is the string itself and of a list or dict is its `repr`. `str()` of an integer reads back as that integer under `int()`. |
| `Json.ParseIntText` | src/news_scrape.py:213 | `int()` accepts exactly an optional sign followed by at least one digit. Its value is the digits' value, negated after `-`. Anything else raises `ValueError`. |
| `Json.ParseInt` | src/news_scrape.py:213 | `int()` fails only with its `ValueError`. How surrounding whitespace is treated is stated by `Json.ParseIntIgnoresPadding`. |
| `Json.ParseIntIgnoresPadding` | src/news_scrape.py:213 | Whitespace before and after the number does not change what `int()` returns or raises. |
| `Json.ParseIntDecimalString` | src/news_scrape.py:213 | `int(str(n)) == n` for every integer, so the default limit `str(50)` reads back as 50. |
| `Summarize.HeadlineLines` | src/news_scrape.py:108-110 | One prompt line per article, in input order, each `- {title} ({source})`. |
| `Summarize.PromptSnoc` | src/news_scrape.py:107-116 | No articles give the fixed instruction plus `Headlines:\n` and nothing after it. Appending an article appends its line, preceded by a newline unless it is the first. |
| `Summarize.Prompt` | src/news_scrape.py:107-116 | The prompt starts with the fixed instruction and `Headlines:\n`, and with no articles it is exactly that. How each headline extends it is stated by `Summarize.PromptSnoc`. |
| `Summarize.PromptHeadlinesReadBack` | src/news_scrape.py:107-116 | The prompt starts with the fixed preamble. When no title or source contains a newline, splitting the rest on newlines gives back exactly the headline lines. |
| `Summarize.ChatUrl` | src/news_scrape.py:129 | The URL is the endpoint with its trailing run of `/` removed, followed by `/openai/deployments/{deployment}/chat/completions`. The kept base is a prefix of the endpoint, the removed part is all `/`, and the base does not end in `/`. |
| `Summarize.ChatUrlIgnoresTrailingSlashes` | src/news_scrape.py:129 | Any number of trailing slashes on the endpoint yields the same URL. |
| `Summarize.ChatRequest` | src/news_scrape.py:129-148 | The request is a POST to `Summarize.ChatUrl`, with `api-version` as a query parameter and the key in the `api-key` header. Its messages are the fixed system role followed by the prompt as the user message. |
| `Summarize.ContentField` | src/news_scrape.py:153 | The subscript chain `data["choices"][0]["message"]["content"]` yields a string exactly when the completion is well shaped, and that string is the content. A non-dict body raises `TypeError`, a missing `choices` raises `KeyError`, an empty `choices` raises `IndexError`, and no other error arises. |
| `Summarize.ExtractContent` | src/news_scrape.py:152-156 | Success holds exactly when `choices[0].message.content` exists along dict, non-empty list, dict and dict and is a string. The result is then that content, stripped. A non-dict body raises `TypeError`, a missing `choices` raises `KeyError`, and an empty `choices` raises `IndexError`. When the chain succeeds but the content is not a string, `.strip()` raises `AttributeError`, which the `except` clause does not catch. Every failure is one of `KeyError`, `IndexError`, `TypeError` or `AttributeError`. |
| `Summarize.Synthesize` | src/news_scrape.py:119-156 | A missing endpoint, key or deployment raises the `ValueError` and sends nothing. Otherwise exactly one POST carries the built prompt to the stripped-endpoint URL. An accepted reply (a status outside 400–599 with a JSON body) gives exactly `Summarize.ExtractContent` of its body: its stripped content when well shaped, or the shape error. A transport, status or decoding failure is raised unchanged. Every returned summary comes from an accepted, well-shaped reply. |
| `Text.StripChars` | src/news_scrape.py:153 | `strip()` returns a text no longer than its input that neither starts nor ends in whitespace. |
| `Text.StripCharsPlacement` | src/news_scrape.py:153 | The stripped text is the piece of the input right after its leading whitespace, and only whitespace follows it. |
| `Text.StripCharsIdempotent` | src/news_scrape.py:153 | Stripping a stripped text changes nothing. |
| `Text.StripCharsPadded` | src/news_scrape.py:153 | Whitespace added at either end of a text does not change what `strip()` returns. |
| `Text.StripCharsNoEdges` | src/news_scrape.py:153 | A text that neither starts nor ends in whitespace is unchanged by `strip()`. |
| `Text.TrimEnd` | src/news_scrape.py:129 | `rstrip('/')` returns the prefix after which only `/` remains. The prefix does not end in `/`. |
| `Text.TrimEndUnique` | src/news_scrape.py:129 | The three properties above determine the `rstrip` result uniquely. |
| `Text.TrimEndIdempotent` | src/news_scrape.py:129 | Stripping trailing slashes twice is stripping them once. |
| `Storage.RowOf` | src/news_scrape.py:192-200 | `published_at` is stored as NULL exactly when it is falsy, and in particular when it is `""`. Otherwise it is stored unchanged. |
| `Storage.InsertArticlesFirstWriteWins` | src/news_scrape.py:185-201 | After the inserts, the keys are the old keys plus the batch ids. Existing rows are unchanged. Each new row comes from the first article of the batch with its id, which covers duplicates within one batch. At most one row is added per article. |
| `Storage.InsertOne` | src/news_scrape.py:186-201 | One insert with `ON CONFLICT (id) DO NOTHING` adds the article's id to the keys. It never changes an existing row, and a new row is the article's row under the summary id. |
| `Storage.InsertArticles` | src/news_scrape.py:185-201 | The inserts of one batch, in order, never change a row that was already there. Its other properties are stated by `Storage.InsertArticlesFirstWriteWins` and `Storage.InsertArticlesIdempotent`. |
| `Storage.InsertArticlesIdempotent` | src/news_scrape.py:186-191 | Storing the same batch again, under any summary, leaves every article row as it was. |
| `Storage.CommitSummaryRow` | src/news_scrape.py:174-183 | A committed attempt adds exactly one summary row, holding the summary, under an id not used before. The migration count goes up by one exactly when schema init is on. |
| `Storage.Commit` | src/news_scrape.py:174-201 | One committed attempt stores the summary under the next serial id, keeps every existing article row, and counts a migration exactly when schema init is on. Its other properties are stated by `Storage.CommitSummaryRow`, `Storage.CommitArticleRows` and `Storage.CommitKeepsValid`. |
| `Storage.CommitArticleRows` | src/news_scrape.py:174-201 | A committed attempt adds rows only for new ids, and those rows refer to the new summary. Existing rows are unchanged, and at most `len(articles)` rows are added. |
| `Storage.CommitKeepsValid` | src/news_scrape.py:168-201 | A committed attempt keeps summary ids below the serial counter. It also keeps every article row referring to an existing summary row. |
| `Storage.BackoffDelay` | src/news_scrape.py:57-59 | The first wait is the base delay. |
| `Storage.BackoffDoubles` | src/news_scrape.py:57-59 | Each wait is twice the one before. |
| `Storage.DefaultBackoffSchedule` | src/news_scrape.py:57-59 | With the defaults, the waits after attempts 1 and 2 are 2 and 4 seconds. |
| `Storage.RetryFrom` | src/news_scrape.py:172-207 | At most `DEFAULT_MAX_RETRIES` attempts are made. Every attempt before the last one raised a database error. The loop stops at the first commit or non-database exception, and a database error ends the run only on the last attempt. Success holds exactly when the last attempt committed, and then the database is that commit. On failure the database is unchanged and the error is `DatabaseError` or `OtherError` as that attempt raised. The k-th wait is `2 * 2^(k-1)` seconds. |
| `Storage.StoreResults` | src/news_scrape.py:159-207 | An unset or empty connection string raises `ValueError("POSTGRES_CONN_STR is not set")` with no attempt. Otherwise one to three attempts are made, each before the last one raising a database error, and a database error ends the run only at the third. Success holds exactly when the last attempt committed, and the database is then that commit. Failure leaves the database unchanged and re-raises the last attempt's error: `DatabaseError` for a `psycopg2.Error`, `OtherError` otherwise. The k-th wait is `2 * 2^(k-1)` seconds, one wait between consecutive attempts. Validity is preserved. |
| `Storage.StoreResultsLoop` | src/news_scrape.py:172-207 | The retry loop as written, with `break`, re-raise and sleep, computes exactly the run that `StoreResults` describes. |
| `Storage.FailThenSucceed` | src/news_scrape.py:172-207 | A database error followed by a commit succeeds after two attempts and one 2-second wait. It adds exactly one summary row and stores every batch id. |
| `Storage.AllAttemptsFail` | src/news_scrape.py:172-207 | Three database errors re-raise the error after waits of 2 and 4 seconds, with the database untouched. |
| `Pipeline.InitSchemaFlagIff` | src/news_scrape.py:221 | Schema init is on exactly when the variable is set and reads `1`, `true` or `yes` in any letter case. An unset variable means off. |
| `Pipeline.InitSchemaEnabled` | src/news_scrape.py:221 | An unset variable reads as `"false"` and leaves the flag off. The flag can only be on for a text of one to four characters. The exact readings are stated by `Pipeline.InitSchemaFlagIff`. |
| `Pipeline.InitSchemaFlagExamples` | src/news_scrape.py:221 | `TRUE`, `Yes` and `1` switch schema init on. Unset, `on` and the empty string leave it off. |
| `Pipeline.ConfigFromEnv` | src/news_scrape.py:211-221 | Each of the nine variables is read as `os.getenv` reads it, with the code's defaults for categories, limit and API version. The limit is `int()` of `NEWS_API_LIMIT` or of `"50"`. Reading succeeds exactly when `int()` accepts that text, and the only failure is its `ValueError` on a set `NEWS_API_LIMIT`. |
| `Pipeline.EmptyEnvDefaults` | src/news_scrape.py:211-221 | With no variable set, the configuration is all defaults: categories `business,tech`, limit 50 and API version `2024-02-15-preview`, with everything else unset. |
| `Pipeline.LimitFromEnv` | src/news_scrape.py:213 | A `NEWS_API_LIMIT` written as `str(n)` configures the limit `n`. |
| `Pipeline.RunPipeline` | src/news_scrape.py:223-242 | The fetch always comes first, and a fetch error is the run's error, with no other stage called. An empty fetch returns `{"summary": "", "articles": []}`, calls nothing else and leaves the database alone. A non-empty fetch calls the summariser next. If the summariser raises, that error is the run's and storage is not called. Otherwise storage is called with the summary and the fetched articles. A storage error is then the run's error, and a storage success returns that summary with the fetched articles. The database afterwards is storage's. A failed run leaves the database unchanged, and validity is preserved. |
| `Pipeline.RunPipelineTrace` | src/news_scrape.py:223-242 | Read backwards from the stages called: the summariser ran only after a non-empty fetch, and storage only after a summary. A non-empty success returned the fetched articles and the model's summary, and committed exactly those. |
| `Pipeline.RunPipelineEnv` | src/news_scrape.py:210-242 | `run_pipeline()` reads its configuration first. A limit `int()` rejects raises `ValueError` before any stage, leaving the database unchanged. Otherwise the run is `Pipeline.RunPipeline` on the configuration read. |
| `Pipeline.MissingNewsKeyStopsEarly` | src/news_scrape.py:224 | Without a news API key the run raises the key's `ValueError` after sending no request and calling no other stage. |
| `Pipeline.EndToEnd` | src/news_scrape.py:224-242 | Articles fetched, a summary `s` and a first attempt that commits give back `s` with the same articles. The database then has one more summary row, holding `s`, and a row for every article that refers to it. |

## Left out

- Transport retries: `_build_retry_session` and urllib3's `Retry` (attempt counting,
  `backoff_factor`, the status force-list). They live in a library that is not part of this
  model, so every HTTP call is one abstract `Outcome`, taken after the transport's own retries.
- Real network I/O and `resp.json()`. A reply is a status plus an optional decoded body. A body
  that is not JSON raises a decoding error. `raise_for_status` raises for statuses 400 to 599.
- `datetime.now()` and `strftime`. The already formatted date is the parameter `today`.
- psycopg2, the SQL text and the migration file. Connecting, executing and commit/rollback are
  one abstract outcome per attempt. That a failed attempt commits nothing is an assumption about
  the `with psycopg2.connect(...)` scope. The migration script is an opaque action counted in
  `Db.migrations`.
- The migration script's effect on the tables. The script file is not part of this model. It is
  assumed either to raise a `psycopg2.Error`, which is one of the attempt outcomes, or to leave
  the existing `news_summaries` and `news_articles` rows as they are, as `CREATE TABLE IF NOT
  EXISTS` statements would. `Storage.Commit`, `Storage.CommitArticleRows`,
  `Storage.CommitKeepsValid` and `Storage.InsertArticles` state "existing rows are unchanged"
  under that assumption when schema init is on.
- Serial ids consumed by rolled-back attempts. Postgres sequences do not roll back, so real
  summary ids can have gaps. In the model the next id advances only on commit.
- `time.sleep`. The waits are recorded in `StoreRun.sleeps`, not taken.
- Logging and `load_dotenv`. The environment is a map from names to values.
- `Json.ParseInt`: reads only ASCII digits, and rejects the `_` digit separators and non-ASCII
  decimal digits that Python's `int()` also accepts. The `ValueError` message leaves out the
  `repr` of the rejected text that Python appends.
- `Json.ParseIntText`: has no limit on the number of digits. Since Python 3.11, `int()` and
  `str()` raise `ValueError` beyond 4300 digits by default (`PYTHONINTMAXSTRDIGITS`). The limits
  the pipeline reads are far shorter.
- `Json.ParseIntDecimalString`: holds for every integer, whereas Python would raise for integers
  of more than 4300 digits under that default conversion limit.
- Request-body constants with no effect on control flow: `temperature` (a float) and
  `max_tokens`.
- JSON numbers with a fraction or exponent (Python floats). `Json.Value` has integers only.
- Python's `repr` of JSON lists and objects. It is what `str()` returns for them and is supplied
  as the `render` parameter.
- `Text.Lower`: folds only ASCII letters. No non-ASCII character lowercases to a letter of `1`,
  `true` or `yes`, so the flag reading is exact.
- `Storage.BackoffDelay`: defined only for attempt numbers from 1 on. Python would give a float
  for attempt 0, but the loop never passes one.
- Iterable re-consumption. Articles are a finite sequence, as `run_pipeline` passes a list.
- `scripts/test_fetch_news.py`: an ad-hoc command-line tool (argument parsing, printing, file
  output).
- `function_app.py`: the timer trigger, which only logs and calls `run_pipeline`.

=== FILE: errors.dfy ===
/** The exceptions the pipeline lets escape, named after the Python exception that is raised. */
module Errors {

  datatype Error =
    /** `ValueError` raised by a guard on missing configuration, with its message. */
    | ValueError(message: string)
    /** A transport failure from the HTTP client (connection error, timeout, exhausted retries). */
    | RequestFailed
    /** `HTTPError` raised by `raise_for_status` for a 4xx or 5xx status. */
    | HttpStatusError(status: int)
    /** The response body was not a JSON document. */
    | JsonDecodeError
    /** Subscripting a mapping with a key it does not hold. */
    | KeyError
    /** Subscripting a sequence outside its bounds. */
    | IndexError
    /** Subscripting or iterating a value that does not support it. */
    | TypeError
    /** Calling a method (`get`, `strip`) on a value that does not have it. */
    | AttributeError
    /** A `psycopg2.Error` re-raised after the last storage attempt. */
    | DatabaseError
    /** Any other exception escaping a storage attempt, such as an unreadable migration file. */
    | OtherError

  const NewsKeyMissing := "NEWS_API_KEY is not set"
  const AzureConfigMissing := "AZURE_OPENAI_ENDPOINT, AZURE_OPENAI_API_KEY, or AZURE_OPENAI_DEPLOYMENT is not set"
  const ConnStrMissing := "POSTGRES_CONN_STR is not set"
}

=== FILE: fetch.dfy ===
/** The news fetcher: the API-key guard, the query sent to the news API, and the mapping of
    each upstream item to an `Article`. */
module Fetch {
  import opened Wrappers
  import opened Errors
  import opened Json
  import opened Http

  const NewsApiBaseUrl := "https://api.thenewsapi.com/v1/news/all"
  const Language := "en"
  const Locales := "us,ca,au,gb,cn,de,fr,it,jp"

  /** One normalised news item. The text fields hold what the upstream item holds when that is
      truthy and `""` otherwise (the code does not convert them to strings); `id` is converted
      with `str()`; `raw` is the upstream item itself. */
  datatype Article = Article(
    id: string,
    title: Value,
    description: Value,
    url: Value,
    publishedAt: Value,
    source: Value,
    raw: map<string, Value>)

  /** The upstream keys copied into the text fields of an `Article`. */
  const TextKeys: set<string> := {"title", "description", "url", "published_at", "source"}

  /** The text field of `a` filled from upstream key `key`. */
  function Field(a: Article, key: string): Value
    requires key in TextKeys
  {
    if key == "title" then a.title
    else if key == "description" then a.description
    else if key == "url" then a.url
    else if key == "published_at" then a.publishedAt
    else a.source
  }

  /** `str()` of the chosen identifier, or `""` when there is none. */
  function IdText(chosen: Option<Value>, render: Value -> string): string {
    match chosen
    case Some(v) => PyStr(v, render)
    case None => ""
  }

  /** One upstream item mapped to an `Article`:
      `id=str(item.get("uuid") or item.get("id") or "")`, each text field `item.get(k) or ""`,
      `raw=item`. */
  function ToArticle(item: map<string, Value>, render: Value -> string): (a: Article)
    ensures a.id == IdText(FirstTruthy([DictGet(item, "uuid"), DictGet(item, "id")]), render)
    ensures forall key {:trigger Field(a, key)} :: key in TextKeys ==>
      Field(a, key) == (if key in item && Truthy(item[key]) then item[key] else Str(""))
    ensures a.raw == item
  {
    Article(
      id := PyStr(Or(Or(DictGet(item, "uuid"), DictGet(item, "id")), Str("")), render),
      title := Or(DictGet(item, "title"), Str("")),
      description := Or(DictGet(item, "description"), Str("")),
      url := Or(DictGet(item, "url"), Str("")),
      publishedAt := Or(DictGet(item, "published_at"), Str("")),
      source := Or(DictGet(item, "source"), Str("")),
      raw := item)
  }

  /** The loop over the items of `payload["data"]`: each item must be a dict, since `item.get`
      raises `AttributeError` on anything else. */
  function ToArticles(items: seq<Value>, render: Value -> string): (r: Result<seq<Article>, Error>)
    ensures r.Success? <==> forall k :: 0 <= k < |items| ==> items[k].Obj?
    ensures r.Success? ==> |r.value| == |items|
    ensures r.Success? ==> forall k :: 0 <= k < |items| ==> r.value[k] == ToArticle(items[k].fields, render)
    ensures r.Failure? ==> r.error == AttributeError
  {
    if |items| == 0 then Success([])
    else if !items[0].Obj? then Failure(AttributeError)
    else
      match ToArticles(items[1..], render)
      case Failure(e) => Failure(e)
      case Success(rest) => Success([ToArticle(items[0].fields, render)] + rest)
  }

  /** `for item in payload.get("data", [])` over the decoded body. A body that is not a dict
      has no `get`; `data` that is `None`, a number or a boolean is not iterable; a non-empty
      string or dict iterates strings, which have no `get`. */
  function Normalise(payload: Value, render: Value -> string): (r: Result<seq<Article>, Error>)
    ensures !payload.Obj? ==> r == Failure(AttributeError)
    ensures payload.Obj? && "data" !in payload.fields ==> r == Success([])
    ensures payload.Obj? && "data" in payload.fields && payload.fields["data"].Arr? ==>
      r == ToArticles(payload.fields["data"].items, render)
    ensures (payload.Obj? && "data" in payload.fields &&
             (payload.fields["data"].Null? || payload.fields["data"].Bool? || payload.fields["data"].Int?)) ==>
      r == Failure(TypeError)
    ensures (payload.Obj? && "data" in payload.fields &&
             (payload.fields["data"].Str? || payload.fields["data"].Obj?)) ==>
      r == (if Truthy(payload.fields["data"]) then Failure(AttributeError) else Success([]))
    ensures r.Success? && |r.value| > 0 ==>
      payload.Obj? && "data" in payload.fields && payload.fields["data"].Arr?
  {
    if !payload.Obj? then Failure(AttributeError)
    else
      var data := if "data" in payload.fields then payload.fields["data"] else Arr([]);
      match data
      case Arr(items) => ToArticles(items, render)
      case Str(s) => if |s| == 0 then Success([]) else Failure(AttributeError)
      case Obj(m) => if |m| == 0 then Success([]) else Failure(AttributeError)
      case _ => Failure(TypeError)
  }

  /** The query parameters of the news request, in the order the code lists them; `requests`
      drops a parameter whose value is `None`, so `page` appears only when it is given. */
  function NewsQuery(apiKey: string, categories: string, limit: int, today: string, page: Option<int>)
    : (q: seq<(string, string)>)
    ensures Lookup(q, "api_token") == Some(apiKey)
    ensures Lookup(q, "categories") == Some(categories)
    ensures Lookup(q, "limit") == Some(DecimalString(limit))
    ensures Lookup(q, "language") == Some(Language)
    ensures Lookup(q, "published_on") == Some(today)
    ensures Lookup(q, "locale") == Some(Locales)
    ensures Lookup(q, "page") == (if page.Some? then Some(DecimalString(page.value)) else None)
  {
    var q := [ ("api_token", apiKey),
               ("categories", categories),
               ("limit", DecimalString(limit)),
               ("language", Language),
               ("published_on", today),
               ("locale", Locales) ]
             + (if page.Some? then [("page", DecimalString(page.value))] else []);
    LookupFirst(q, "api_token", 0);
    LookupFirst(q, "categories", 1);
    LookupFirst(q, "limit", 2);
    LookupFirst(q, "language", 3);
    LookupFirst(q, "published_on", 4);
    LookupFirst(q, "locale", 5);
    if page.Some? then LookupFirst(q, "page", 6); q
    else LookupMissing(q, "page"); q
  }

  /** The one GET request `fetch_news` sends. */
  function NewsRequest(apiKey: string, categories: string, limit: int, today: string, page: Option<int>)
    : (r: Request)
    ensures r.verb == Get && r.url == NewsApiBaseUrl && r.headers == [] && r.messages == []
    ensures r.query == NewsQuery(apiKey, categories, limit, today, page)
    // The parameters below follow from `NewsQuery`'s contract; they are repeated for callers.
    ensures Lookup(r.query, "api_token") == Some(apiKey)
    ensures Lookup(r.query, "categories") == Some(categories)
    ensures Lookup(r.query, "limit") == Some(DecimalString(limit))
    ensures Lookup(r.query, "published_on") == Some(today)
  {
    Request(Get, NewsApiBaseUrl, NewsQuery(apiKey, categories, limit, today, page), [], [])
  }

  /** What one call of `fetch_news` returns or raises, with the requests it sent. */
  datatype FetchRun = FetchRun(result: Result<seq<Article>, Error>, sent: seq<Request>)

  /** `fetch_news(api_key, categories, limit, page)`. `today` is the date the clock gives,
      already formatted as `YYYY-MM-DD`; `news` is the remote side. */
  function FetchNews(
    apiKey: Option<string>, categories: string, limit: int, page: Option<int>, today: string,
    news: Request -> Outcome, render: Value -> string): (run: FetchRun)
    ensures !StrTruthy(apiKey) ==> run == FetchRun(Failure(ValueError(NewsKeyMissing)), [])
    ensures StrTruthy(apiKey) ==>
      run.sent == [NewsRequest(apiKey.value, categories, limit, today, page)]
    ensures run.result.Success? ==>
      |run.sent| == 1 && Receive(news(run.sent[0])).Success?
      && run.result == Normalise(Receive(news(run.sent[0])).value, render)
    ensures StrTruthy(apiKey) && Receive(news(run.sent[0])).Success? ==>
      run.result == Normalise(Receive(news(run.sent[0])).value, render)
    ensures StrTruthy(apiKey) && Receive(news(run.sent[0])).Failure? ==>
      run.result == Receive(news(run.sent[0])).PropagateFailure()
  {
    if !StrTruthy(apiKey) then FetchRun(Failure(ValueError(NewsKeyMissing)), [])
    else
      var request := NewsRequest(apiKey.value, categories, limit, today, page);
      var result := match Receive(news(request))
        case Failure(e) => Failure(e)
        case Success(payload) => Normalise(payload, render);
      FetchRun(result, [request])
  }

  /** Mapping preserves count and order: one `Article` per element of `data`, the k-th built
      from the k-th item, whose id comes from `uuid` when that is a non-empty string. */
  lemma NormaliseOnePerItem(items: seq<Value>, render: Value -> string, k: nat)
    requires forall j :: 0 <= j < |items| ==> items[j].Obj?
    requires k < |items|
    ensures var r := Normalise(Obj(map["data" := Arr(items)]), render);
      && r.Success? && |r.value| == |items|
      && r.value[k].raw == items[k].fields
      && (DictGet(items[k].fields, "uuid").Str? && Truthy(DictGet(items[k].fields, "uuid")) ==>
            r.value[k].id == DictGet(items[k].fields, "uuid").s)
  {
    var payload := Obj(map["data" := Arr(items)]);
    assert "data" in payload.fields && payload.fields["data"] == Arr(items);
  }

  /** Absent and null upstream fields both become `""`, and so does every other falsy value. */
  lemma MissingFieldsBecomeEmpty(item: map<string, Value>, render: Value -> string, key: string)
    requires key in TextKeys
    requires key !in item || !Truthy(item[key])
    ensures Field(ToArticle(item, render), key) == Str("")
  {
  }

  /** An item with neither a truthy `uuid` nor a truthy `id` gets the empty id. */
  lemma NoIdentifierGivesEmptyId(item: map<string, Value>, render: Value -> string)
    requires !Truthy(DictGet(item, "uuid")) && !Truthy(DictGet(item, "id"))
    ensures ToArticle(item, render).id == ""
  {
    assert FirstTruthy([DictGet(item, "uuid"), DictGet(item, "id")]) == None;
  }
}

=== FILE: http.dfy ===
/** The HTTP boundary. A request is data; the remote side is a function from requests to
    outcomes supplied by the caller, and a response is unwrapped the way the code does it:
    `raise_for_status()` followed by `resp.json()`. */
module Http {
  import opened Wrappers
  import opened Errors
  import opened Json

  datatype Verb = Get | Post

  /** One chat message of a language-model request body. */
  datatype Message = Message(role: string, content: string)

  /** One outbound request: verb, URL, query parameters in order, headers and (for a chat
      completion) the messages of its JSON body. */
  datatype Request = Request(
    verb: Verb,
    url: string,
    query: seq<(string, string)>,
    headers: seq<(string, string)>,
    messages: seq<Message>)

  /** What the transport hands back for a request once its own retries are over: a failure
      (connection error, timeout, exhausted retries), or the final status and body, where a body
      that is not JSON is `None`. */
  datatype Outcome = TransportFailure | Reply(status: int, body: Option<Value>)

  /** The value of the first query parameter named `key`. */
  function Lookup(query: seq<(string, string)>, key: string): Option<string> {
    if |query| == 0 then None
    else if query[0].0 == key then Some(query[0].1)
    else Lookup(query[1..], key)
  }

  /** `Lookup` finds the first parameter with the key. */
  lemma {:induction false} LookupFirst(query: seq<(string, string)>, key: string, i: nat)
    requires i < |query| && query[i].0 == key
    requires forall j :: 0 <= j < i ==> query[j].0 != key
    ensures Lookup(query, key) == Some(query[i].1)
  {
    if i > 0 {
      LookupFirst(query[1..], key, i - 1);
    }
  }

  /** `Lookup` finds nothing when no parameter has the key. */
  lemma {:induction false} LookupMissing(query: seq<(string, string)>, key: string)
    requires forall j :: 0 <= j < |query| ==> query[j].0 != key
    ensures Lookup(query, key) == None
  {
    if |query| > 0 {
      LookupMissing(query[1..], key);
    }
  }

  /** `resp.raise_for_status()` then `resp.json()`. */
  function Receive(o: Outcome): (r: Result<Value, Error>)
    ensures r.Success? <==> o.Reply? && !(400 <= o.status < 600) && o.body.Some?
    ensures r.Success? ==> r.value == o.body.value
    ensures o.TransportFailure? ==> r == Failure(RequestFailed)
    ensures o.Reply? && 400 <= o.status < 600 ==> r == Failure(HttpStatusError(o.status))
    ensures r.Failure? ==> r.error.RequestFailed? || r.error.HttpStatusError? || r.error.JsonDecodeError?
  {
    match o
    case TransportFailure => Failure(RequestFailed)
    case Reply(status, body) =>
      if 400 <= status < 600 then Failure(HttpStatusError(status))
      else if body.None? then Failure(JsonDecodeError)
      else Success(body.value)
  }
}

=== FILE: json.dfy ===
/** The loosely-typed JSON documents that cross the boundary to the news API and the
    language-model endpoint, with the few pieces of Python semantics the code applies to them:
    truthiness, `dict.get`, subscripting, `str()` and `int()`. */
module Json {
  import opened Wrappers
  import opened Errors
  import opened Text

  /** A decoded JSON document, as Python sees it after `resp.json()`. */
  datatype Value =
    | Null
    | Bool(b: bool)
    | Int(i: int)
    | Str(s: string)
    | Arr(items: seq<Value>)
    | Obj(fields: map<string, Value>)

  /** Python truthiness: `None`, `False`, `0`, `""`, `[]` and `{}` are false. */
  predicate Truthy(v: Value) {
    match v
    case Null => false
    case Bool(b) => b
    case Int(i) => i != 0
    case Str(s) => |s| > 0
    case Arr(xs) => |xs| > 0
    case Obj(m) => |m| > 0
  }

  /** Truthiness of a configuration value that is either a string or `None` (unset). */
  predicate StrTruthy(o: Option<string>) {
    o.Some? && |o.value| > 0
  }

  /** Python's `a or b`. */
  function Or(a: Value, b: Value): Value {
    if Truthy(a) then a else b
  }

  /** `d.get(key)`: the value under `key`, or `None` when the key is absent. */
  function DictGet(d: map<string, Value>, key: string): Value {
    if key in d then d[key] else Null
  }

  /** Reference definition: the first truthy value of `vs`, if any. */
  function FirstTruthy(vs: seq<Value>): (r: Option<Value>)
    ensures r.Some? ==> Truthy(r.value) && r.value in vs
    ensures r.None? <==> forall k :: 0 <= k < |vs| ==> !Truthy(vs[k])
  {
    if |vs| == 0 then None
    else if Truthy(vs[0]) then Some(vs[0])
    else FirstTruthy(vs[1..])
  }

  /** The subscript of a Python `[]` expression: a string key or an integer position. */
  datatype Index = Key(k: string) | Pos(p: int)

  /** Python's `v[ix]` on a decoded JSON value. A dict raises `KeyError` for a missing key
      (and for any integer, since JSON keys are strings); a list or string raises `IndexError`
      out of range (negative positions count from the end) and `TypeError` for a string key;
      `None`, booleans and numbers are not subscriptable. */
  function Subscript(v: Value, ix: Index): (r: Result<Value, Error>)
    ensures r.Success? <==>
      || (v.Obj? && ix.Key? && ix.k in v.fields)
      || (v.Arr? && ix.Pos? && -|v.items| <= ix.p < |v.items|)
      || (v.Str? && ix.Pos? && -|v.s| <= ix.p < |v.s|)
    ensures v.Obj? && ix.Key? && ix.k in v.fields ==> r == Success(v.fields[ix.k])
    ensures v.Arr? && ix.Pos? && 0 <= ix.p < |v.items| ==> r == Success(v.items[ix.p])
    ensures v.Obj? && !r.Success? ==> r == Failure(KeyError)
    ensures r.Failure? ==> r.error in {KeyError, IndexError, TypeError}
  {
    match v
    case Obj(m) =>
      if ix.Key? && ix.k in m then Success(m[ix.k]) else Failure(KeyError)
    case Arr(xs) =>
      if ix.Key? then Failure(TypeError)
      else if -|xs| <= ix.p < |xs| then Success(xs[if ix.p < 0 then ix.p + |xs| else ix.p])
      else Failure(IndexError)
    case Str(s) =>
      if ix.Key? then Failure(TypeError)
      else if -|s| <= ix.p < |s| then Success(Str([s[if ix.p < 0 then ix.p + |s| else ix.p]]))
      else Failure(IndexError)
    case _ => Failure(TypeError)
  }

  /** The decimal digits of `n`, most significant first. */
  function Digits(n: nat): (r: string)
    ensures |r| >= 1
    ensures forall k :: 0 <= k < |r| ==> '0' <= r[k] <= '9'
    ensures n > 0 ==> r[0] != '0'
  {
    if n < 10 then [DigitChar(n)] else Digits(n / 10) + [DigitChar(n % 10)]
  }

  function DigitChar(d: nat): (c: char)
    requires d < 10
    ensures '0' <= c <= '9'
  {
    (d + '0' as int) as char
  }

  /** The value of a string of decimal digits. */
  function DigitsValue(s: string): nat
    requires forall k :: 0 <= k < |s| ==> '0' <= s[k] <= '9'
  {
    if |s| == 0 then 0 else 10 * DigitsValue(s[..|s| - 1]) + (s[|s| - 1] as int - '0' as int)
  }

  /** Reading the digits back gives the number: `Digits` loses nothing. */
  lemma {:induction false} DigitsRoundTrip(n: nat)
    ensures DigitsValue(Digits(n)) == n
  {
    if n >= 10 {
      var d := Digits(n);
      assert d[..|d| - 1] == Digits(n / 10);
      DigitsRoundTrip(n / 10);
    }
  }

  /** Python's `str()` of an integer. */
  function DecimalString(i: int): string {
    if i < 0 then "-" + Digits(-i) else Digits(i)
  }

  predicate AllDigits(s: string) {
    forall k :: 0 <= k < |s| ==> '0' <= s[k] <= '9'
  }

  /** The message of the `ValueError` that `int()` raises on text that is not an integer. */
  const IntLiteralInvalid := "invalid literal for int() with base 10"

  /** Python's `int(s)` for base-10 text: surrounding whitespace is ignored, then the text is
      read by `ParseIntText`. */
  function ParseInt(s: string): (r: Result<int, Error>)
    ensures r.Failure? ==> r.error == ValueError(IntLiteralInvalid)
  {
    ParseIntText(Strip(s))
  }

  /** The digits `int()` reads: what follows the sign, if there is one. */
  function Unsigned(t: string): string {
    if |t| > 0 && (t[0] == '-' || t[0] == '+') then t[1..] else t
  }

  /** `int()` of text without surrounding whitespace: one optional sign, then at least one ASCII
      digit; anything else raises `ValueError`. */
  function ParseIntText(t: string): (r: Result<int, Error>)
    ensures r.Failure? ==> r.error == ValueError(IntLiteralInvalid)
    ensures r.Success? <==> |Unsigned(t)| > 0 && AllDigits(Unsigned(t))
    ensures r.Success? && t[0] != '-' ==> r.value == DigitsValue(Unsigned(t))
    ensures r.Success? && t[0] == '-' ==> r.value == -(DigitsValue(Unsigned(t)) as int)
  {
    var body := Unsigned(t);
    if |body| == 0 || !AllDigits(body) then Failure(ValueError(IntLiteralInvalid))
    else if t[0] == '-' then Success(-(DigitsValue(body) as int))
    else Success(DigitsValue(body))
  }

  /** `int()` ignores whitespace around the number. */
  lemma ParseIntIgnoresPadding(head: string, s: string, tail: string)
    requires AllIn(head, Whitespace) && AllIn(tail, Whitespace)
    ensures ParseInt(head + s + tail) == ParseInt(s)
  {
    StripCharsPadded(head, s, tail, Whitespace);
  }

  /** `int(str(n)) == n`: reading back what `str()` wrote gives the number. */
  lemma {:induction false} ParseIntDecimalString(n: int)
    ensures ParseInt(DecimalString(n)) == Success(n)
  {
    var s := DecimalString(n);
    DecimalStringNoWhitespaceEdges(n);
    StripCharsNoEdges(s, Whitespace);
    ParseIntTextDecimalString(n);
  }

  /** `str()` of an integer neither starts nor ends in whitespace. */
  lemma {:induction false} DecimalStringNoWhitespaceEdges(n: int)
    ensures var s := DecimalString(n); s != [] && s[0] !in Whitespace && s[|s| - 1] !in Whitespace
  {
    var s := DecimalString(n);
    var d := Digits(if n < 0 then -n else n);
    assert s[|s| - 1] == d[|d| - 1];
    assert s[0] == '-' || '0' <= s[0] <= '9';
  }

  /** Reading back what `str()` wrote, without any whitespace to strip. */
  lemma {:induction false} ParseIntTextDecimalString(n: int)
    ensures ParseIntText(DecimalString(n)) == Success(n)
  {
    var m := if n < 0 then -n else n;
    var d := Digits(m);
    DigitsRoundTrip(m);
    if n < 0 {
      var s := DecimalString(n);
      assert s[1..] == d;
      ParseIntTextNegative(s);
    } else {
      ParseIntTextDigits(d);
    }
  }

  lemma ParseIntTextDigits(d: string)
    requires |d| > 0 && AllDigits(d)
    ensures ParseIntText(d) == Success(DigitsValue(d))
  {
    assert d[0] != '-' && d[0] != '+';
  }

  lemma ParseIntTextNegative(t: string)
    requires |t| > 1 && t[0] == '-' && AllDigits(t[1..])
    ensures ParseIntText(t) == Success(-(DigitsValue(t[1..]) as int))
  {
    assert Unsigned(t) == t[1..];
  }

  /** `str()` is injective on integers: distinct integer ids never share a storage key. */
  lemma DecimalStringInjective(i: int, j: int)
    requires DecimalString(i) == DecimalString(j)
    ensures i == j
  {
    var a := if i < 0 then -i else i;
    var b := if j < 0 then -j else j;
    assert (i < 0) == (j < 0) by {
      assert DecimalString(i)[0] == DecimalString(j)[0];
    }
    if i < 0 {
      assert Digits(a) == DecimalString(i)[1..];
      assert Digits(b) == DecimalString(j)[1..];
    }
    DigitsRoundTrip(a);
    DigitsRoundTrip(b);
  }

  /** Python's `str(v)`. The `repr` of arrays and objects is Python's own and is supplied by
      the caller as `render`. */
  function PyStr(v: Value, render: Value -> string): (r: string)
    ensures v.Str? ==> r == v.s
    ensures v.Int? ==> ParseInt(r) == Success(v.i)
    ensures v.Arr? || v.Obj? ==> r == render(v)
  {
    match v
    case Null => "None"
    case Bool(b) => if b then "True" else "False"
    case Int(i) => ParseIntDecimalString(i); DecimalString(i)
    case Str(s) => s
    case _ => render(v)
  }
}

=== FILE: pipeline.dfy ===
/** `run_pipeline`: fetch, then (unless nothing came back) summarise, then store, each stage
    run against the remote sides and the database given in a `World`. */
module Pipeline {
  import opened Wrappers
  import opened Errors
  import opened Json
  import opened Text
  import opened Http
  import opened Fetch
  import opened Summarize
  import opened Storage

  const DefaultCategories := "business,tech"
  const DefaultLimit := 50

  /** The configuration `run_pipeline` reads from the environment; `None` is an unset variable.
      Defaults have already been applied to the fields that have one. */
  datatype Config = Config(
    newsApiKey: Option<string>,
    categories: string,
    limit: int,
    azureEndpoint: Option<string>,
    azureKey: Option<string>,
    azureDeployment: Option<string>,
    azureApiVersion: string,
    postgresConn: Option<string>,
    initSchema: Option<string>)

  /** `os.getenv(name)`: `None` when the variable is unset. */
  function GetEnv(env: map<string, string>, name: string): Option<string> {
    if name in env then Some(env[name]) else None
  }

  /** The configuration `run_pipeline` reads from `env` before it calls anything. The limit is
      `int()` of `NEWS_API_LIMIT` (default `"50"`), which raises `ValueError` on text that is not
      an integer; the other variables are taken as they are, with their defaults. */
  function ConfigFromEnv(env: map<string, string>): (r: Result<Config, Error>)
    ensures r.Failure? ==> r.error == ValueError(IntLiteralInvalid)
    ensures r.Failure? ==> "NEWS_API_LIMIT" in env
    ensures r.Success? ==>
      && r.value.newsApiKey == GetEnv(env, "NEWS_API_KEY")
      && r.value.categories == GetEnv(env, "NEWS_API_CATEGORIES").GetOr(DefaultCategories)
      && r.value.azureApiVersion == GetEnv(env, "AZURE_OPENAI_API_VERSION").GetOr(DefaultApiVersion)
      && r.value.postgresConn == GetEnv(env, "POSTGRES_CONN_STR")
      && r.value.initSchema == GetEnv(env, "POSTGRES_INIT_SCHEMA")
    ensures r.Success? ==>
      && r.value.azureEndpoint == GetEnv(env, "AZURE_OPENAI_ENDPOINT")
      && r.value.azureKey == GetEnv(env, "AZURE_OPENAI_API_KEY")
      && r.value.azureDeployment == GetEnv(env, "AZURE_OPENAI_DEPLOYMENT")
    ensures var t := GetEnv(env, "NEWS_API_LIMIT").GetOr(DecimalString(DefaultLimit));
      && (r.Success? <==> ParseInt(t).Success?)
      && (r.Success? ==> r.value.limit == ParseInt(t).value)
  {
    var limitText := GetEnv(env, "NEWS_API_LIMIT").GetOr(DecimalString(DefaultLimit));
    ParseIntDecimalString(DefaultLimit);
    var limit :- ParseInt(limitText);
    Success(Config(
      GetEnv(env, "NEWS_API_KEY"),
      GetEnv(env, "NEWS_API_CATEGORIES").GetOr(DefaultCategories),
      limit,
      GetEnv(env, "AZURE_OPENAI_ENDPOINT"),
      GetEnv(env, "AZURE_OPENAI_API_KEY"),
      GetEnv(env, "AZURE_OPENAI_DEPLOYMENT"),
      GetEnv(env, "AZURE_OPENAI_API_VERSION").GetOr(DefaultApiVersion),
      GetEnv(env, "POSTGRES_CONN_STR"),
      GetEnv(env, "POSTGRES_INIT_SCHEMA")))
  }

  /** With nothing set, every default applies: the limit reads back as 50. */
  lemma EmptyEnvDefaults()
    ensures ConfigFromEnv(map[]) == Success(Config(
      None, DefaultCategories, DefaultLimit, None, None, None, DefaultApiVersion, None, None))
  {
    ParseIntDecimalString(DefaultLimit);
  }

  /** A limit written as `str(n)` is read back as `n`. */
  lemma LimitFromEnv(env: map<string, string>, n: int)
    requires "NEWS_API_LIMIT" in env && env["NEWS_API_LIMIT"] == DecimalString(n)
    ensures ConfigFromEnv(env).Success? && ConfigFromEnv(env).value.limit == n
  {
    ParseIntDecimalString(n);
  }

  /** Everything outside the code: the date, the two remote services, what the database does
      with each storage attempt, and Python's `repr` of JSON arrays and objects. */
  datatype World = World(
    today: string,
    news: Request -> Outcome,
    llm: Request -> Outcome,
    storage: nat -> AttemptOutcome,
    render: Value -> string)

  /** The stages `run_pipeline` calls, in the order it calls them. */
  datatype Stage = FetchStage | SummarizeStage | StoreStage

  /** `{"summary": ..., "articles": [...]}`. */
  datatype PipelineResult = PipelineResult(summary: string, articles: seq<Article>)

  /** One run: its result or the error it raised, the stages it called, and the database after. */
  datatype PipelineRun = PipelineRun(result: Result<PipelineResult, Error>, stages: seq<Stage>, db: Db)

  /** The values of `POSTGRES_INIT_SCHEMA` that switch schema initialisation on. */
  const TruthyFlags: set<string> := {"1", "true", "yes"}

  /** `os.getenv("POSTGRES_INIT_SCHEMA", "false").lower() in {"1", "true", "yes"}`. An unset
      variable reads as `"false"`, so it means off. The length bound follows because lower-casing
      keeps the length and the accepted readings have one to four characters; which readings are
      accepted exactly is `InitSchemaFlagIff`. */
  function InitSchemaEnabled(v: Option<string>): (on: bool)
    ensures v.None? ==> !on
    ensures on ==> v.Some? && 1 <= |v.value| <= 4
  {
    Lower(v.GetOr("false")) in TruthyFlags
  }

  /** `a` equals `b` once `a` is lower-cased. */
  predicate LowerEquals(a: string, b: string) {
    |a| == |b| && forall k :: 0 <= k < |a| ==> LowerChar(a[k]) == b[k]
  }

  /** The flag is on exactly when the variable is set and reads `1`, `true` or `yes` in any
      mix of upper and lower case; an unset variable means off. */
  lemma InitSchemaFlagIff(v: Option<string>)
    ensures InitSchemaEnabled(v) <==>
      v.Some? && (LowerEquals(v.value, "1") || LowerEquals(v.value, "true") || LowerEquals(v.value, "yes"))
  {
    var s := v.GetOr("false");
    var l := Lower(s);
    forall w | w in TruthyFlags
      ensures l == w <==> LowerEquals(s, w)
    {
      if LowerEquals(s, w) {
        assert l == w;
      }
    }
    if v.None? {
      assert l == "false";
    }
  }

  /** Some concrete readings of the flag. */
  lemma InitSchemaFlagExamples()
    ensures InitSchemaEnabled(Some("TRUE")) && InitSchemaEnabled(Some("Yes")) && InitSchemaEnabled(Some("1"))
    ensures !InitSchemaEnabled(None) && !InitSchemaEnabled(Some("on")) && !InitSchemaEnabled(Some(""))
  {
    InitSchemaFlagIff(Some("TRUE"));
    InitSchemaFlagIff(Some("Yes"));
    InitSchemaFlagIff(Some("1"));
    InitSchemaFlagIff(None);
    InitSchemaFlagIff(Some("on"));
    InitSchemaFlagIff(Some(""));
  }

  /** The fetch `run_pipeline` makes: no page parameter. */
  function PipelineFetch(cfg: Config, world: World): FetchRun {
    FetchNews(cfg.newsApiKey, cfg.categories, cfg.limit, None, world.today, world.news, world.render)
  }

  /** The summarisation `run_pipeline` makes. */
  function PipelineSynthesize(cfg: Config, world: World, articles: seq<Article>): SynthRun {
    Synthesize(cfg.azureEndpoint, cfg.azureKey, cfg.azureDeployment, articles, cfg.azureApiVersion,
               world.llm, world.render)
  }

  /** The storage `run_pipeline` makes. */
  function PipelineStore(cfg: Config, world: World, summary: string, articles: seq<Article>, db: Db): StoreRun {
    StoreResults(cfg.postgresConn, summary, articles, InitSchemaEnabled(cfg.initSchema), db, world.storage)
  }

  /** The storage stage of `run_pipeline`, reached once the summary `summary` exists. */
  function StoreStep(cfg: Config, world: World, db: Db, articles: seq<Article>, summary: string): (run: PipelineRun)
    ensures run.stages == [FetchStage, SummarizeStage, StoreStage]
    ensures var stored := PipelineStore(cfg, world, summary, articles, db);
      && run.db == stored.db
      && (stored.result.Failure? ==> run.result == Failure(stored.result.error))
      && (stored.result.Success? ==> run.result == Success(PipelineResult(summary, articles)))
    ensures run.result.Failure? ==> run.db == db
    ensures Valid(db) ==> Valid(run.db)
    ensures run.result.Success? ==>
      && run.result.value == PipelineResult(summary, articles)
      && run.db == Commit(db, summary, articles, InitSchemaEnabled(cfg.initSchema))
  {
    var stored := PipelineStore(cfg, world, summary, articles, db);
    var stages := [FetchStage, SummarizeStage, StoreStage];
    match stored.result
    case Failure(e) => PipelineRun(Failure(e), stages, stored.db)
    case Success(_) => PipelineRun(Success(PipelineResult(summary, articles)), stages, stored.db)
  }

  /** The summarisation stage of `run_pipeline` and what follows it, reached once the fetch has
      returned the non-empty `articles`. */
  function SummarizeStep(cfg: Config, world: World, db: Db, articles: seq<Article>): (run: PipelineRun)
    ensures |run.stages| >= 2 && run.stages[..2] == [FetchStage, SummarizeStage]
    ensures var synth := PipelineSynthesize(cfg, world, articles).result;
      synth.Failure? ==> run == PipelineRun(Failure(synth.error), [FetchStage, SummarizeStage], db)
    ensures var synth := PipelineSynthesize(cfg, world, articles).result;
      synth.Success? ==> run == StoreStep(cfg, world, db, articles, synth.value)
    ensures run.result.Failure? ==> run.db == db
    ensures Valid(db) ==> Valid(run.db)
  {
    var synth := PipelineSynthesize(cfg, world, articles);
    match synth.result
    case Failure(e) => PipelineRun(Failure(e), [FetchStage, SummarizeStage], db)
    case Success(summary) => StoreStep(cfg, world, db, articles, summary)
  }

  /** `run_pipeline()` against `db`. */
  function RunPipeline(cfg: Config, world: World, db: Db): (run: PipelineRun)
    ensures |run.stages| >= 1 && run.stages[0] == FetchStage
    ensures run.result.Failure? ==> run.db == db
    ensures Valid(db) ==> Valid(run.db)
    ensures PipelineFetch(cfg, world).result == Success([]) ==>
      run == PipelineRun(Success(PipelineResult("", [])), [FetchStage], db)
    ensures var fetched := PipelineFetch(cfg, world).result;
      fetched.Failure? ==> run == PipelineRun(Failure(fetched.error), [FetchStage], db)
    ensures var fetched := PipelineFetch(cfg, world).result;
      fetched.Success? && |fetched.value| > 0 ==>
      && |run.stages| >= 2 && run.stages[..2] == [FetchStage, SummarizeStage]
      && var synth := PipelineSynthesize(cfg, world, fetched.value).result;
      && (synth.Failure? ==> run == PipelineRun(Failure(synth.error), [FetchStage, SummarizeStage], db))
      && (synth.Success? ==>
            var stored := PipelineStore(cfg, world, synth.value, fetched.value, db);
            && run.stages == [FetchStage, SummarizeStage, StoreStage]
            && run.db == stored.db
            && (stored.result.Failure? ==> run.result == Failure(stored.result.error))
            && (stored.result.Success? ==> run.result == Success(PipelineResult(synth.value, fetched.value))))
  {
    var fetched := PipelineFetch(cfg, world);
    match fetched.result
    case Failure(e) => PipelineRun(Failure(e), [FetchStage], db)
    case Success(articles) =>
      if |articles| == 0 then PipelineRun(Success(PipelineResult("", [])), [FetchStage], db)
      else SummarizeStep(cfg, world, db, articles)
  }

  /** Read backwards, a run's trace tells what the stages returned: the summariser ran only
      after a non-empty fetch, storage only after a summary, and a non-empty success returned
      the fetched articles and the model's summary and committed exactly those. */
  lemma RunPipelineTrace(cfg: Config, world: World, db: Db)
    ensures var run := RunPipeline(cfg, world, db);
      SummarizeStage in run.stages ==>
      && PipelineFetch(cfg, world).result.Success?
      && |PipelineFetch(cfg, world).result.value| > 0
      && run.stages[..2] == [FetchStage, SummarizeStage]
    ensures var run := RunPipeline(cfg, world, db);
      StoreStage in run.stages ==>
      && run.stages == [FetchStage, SummarizeStage, StoreStage]
      && PipelineSynthesize(cfg, world, PipelineFetch(cfg, world).result.value).result.Success?
    ensures var run := RunPipeline(cfg, world, db);
      run.result.Success? && run.result.value.articles != [] ==>
      && run.stages == [FetchStage, SummarizeStage, StoreStage]
      && PipelineFetch(cfg, world).result == Success(run.result.value.articles)
      && PipelineSynthesize(cfg, world, run.result.value.articles).result == Success(run.result.value.summary)
      && run.db == Commit(db, run.result.value.summary, run.result.value.articles, InitSchemaEnabled(cfg.initSchema))
  {
    var fetched := PipelineFetch(cfg, world).result;
    if fetched.Success? && |fetched.value| > 0 {
      var run := SummarizeStep(cfg, world, db, fetched.value);
      assert RunPipeline(cfg, world, db) == run;
    }
  }

  /** `run_pipeline()` itself: read the configuration from `env`, then run. A limit that `int()`
      rejects raises `ValueError` before any stage is called. */
  function RunPipelineEnv(env: map<string, string>, world: World, db: Db): (run: PipelineRun)
    ensures ConfigFromEnv(env).Failure? ==>
      run == PipelineRun(Failure(ValueError(IntLiteralInvalid)), [], db)
    ensures ConfigFromEnv(env).Success? ==> run == RunPipeline(ConfigFromEnv(env).value, world, db)
    ensures run.result.Failure? ==> run.db == db
    ensures Valid(db) ==> Valid(run.db)
  {
    match ConfigFromEnv(env)
    case Failure(e) => PipelineRun(Failure(e), [], db)
    case Success(cfg) => RunPipeline(cfg, world, db)
  }

  /** A run with no news API key raises the configuration error and calls nothing else; no
      request leaves the process. */
  lemma MissingNewsKeyStopsEarly(cfg: Config, world: World, db: Db)
    requires !StrTruthy(cfg.newsApiKey)
    ensures PipelineFetch(cfg, world).sent == []
    ensures RunPipeline(cfg, world, db) == PipelineRun(Failure(ValueError(NewsKeyMissing)), [FetchStage], db)
  {
  }

  /** The end-to-end scenario: the fetch returns articles with ids not yet stored, the model
      answers `s`, and the first storage attempt commits. The run returns `s` with the same
      articles, and the database holds one more summary row, holding `s`, to which a new row for
      every article refers. What the two remote sides answer is the premise of the conclusion
      rather than a precondition, so the lemma applies to every configuration and world and a
      caller need not evaluate the fetch and the summariser before using it. */
  lemma EndToEnd(cfg: Config, world: World, db: Db, articles: seq<Article>, s: string)
    requires Valid(db)
    requires StrTruthy(cfg.postgresConn) && world.storage(1) == Commits
    requires forall k :: 0 <= k < |articles| ==> articles[k].id !in db.articles
    ensures
      && PipelineFetch(cfg, world).result == Success(articles) && |articles| > 0
      && PipelineSynthesize(cfg, world, articles).result == Success(s)
      ==>
      var run := RunPipeline(cfg, world, db);
      && run.result == Success(PipelineResult(s, articles))
      && run.stages == [FetchStage, SummarizeStage, StoreStage]
      && run.db.summaries == db.summaries[db.nextId := s]
      && |run.db.summaries| == |db.summaries| + 1
      && forall k :: 0 <= k < |articles| ==>
           articles[k].id in run.db.articles && run.db.articles[articles[k].id].summaryId == db.nextId
  {
    if PipelineFetch(cfg, world).result == Success(articles) && |articles| > 0
      && PipelineSynthesize(cfg, world, articles).result == Success(s)
    {
      EndToEndStored(cfg, world, db, articles, s);
    }
  }

  /** The storage half of `EndToEnd`. */
  lemma EndToEndStored(cfg: Config, world: World, db: Db, articles: seq<Article>, s: string)
    requires Valid(db)
    requires StrTruthy(cfg.postgresConn) && world.storage(1) == Commits
    requires forall k :: 0 <= k < |articles| ==> articles[k].id !in db.articles
    ensures var stored := PipelineStore(cfg, world, s, articles, db);
      && stored.result.Success?
      && stored.db == Commit(db, s, articles, InitSchemaEnabled(cfg.initSchema))
      && stored.db.summaries == db.summaries[db.nextId := s]
      && |stored.db.summaries| == |db.summaries| + 1
      && forall k :: 0 <= k < |articles| ==>
           articles[k].id in stored.db.articles && stored.db.articles[articles[k].id].summaryId == db.nextId
  {
    var flag := InitSchemaEnabled(cfg.initSchema);
    var stored := PipelineStore(cfg, world, s, articles, db);
    assert stored.attempts == 1;
    assert stored.db == Commit(db, s, articles, flag);
    CommitSummaryRow(db, s, articles, flag);
    CommitArticleRows(db, s, articles, flag);
    forall k | 0 <= k < |articles|
      ensures articles[k].id in stored.db.articles && stored.db.articles[articles[k].id].summaryId == db.nextId
    {
      assert articles[k].id in Ids(articles);
    }
  }
}

=== FILE: storage.dfy ===
/** The persistence layer: one transaction per attempt that inserts a summary row and then
    every article with first-write-wins, retried on database errors with exponential backoff.
    The database is abstract: summary rows by id, the next id the serial column hands out,
    article rows by article id, and a count of committed schema migrations. */
module Storage {
  import opened Wrappers
  import opened Errors
  import opened Json
  import opened Fetch

  /** `DEFAULT_MAX_RETRIES`: the number of attempts, not of retries. */
  const MaxAttempts: nat := 3
  /** `DEFAULT_BACKOFF_SECONDS`. */
  const BackoffSeconds: nat := 2

  /** One row of `news_articles`; a `None` publication time is SQL NULL. */
  datatype Row = Row(
    summaryId: nat,
    title: Value,
    url: Value,
    source: Value,
    publishedAt: Option<Value>,
    raw: map<string, Value>)

  /** The two tables, plus how many times the migration script has been committed. */
  datatype Db = Db(
    summaries: map<nat, string>,
    nextId: nat,
    articles: map<string, Row>,
    migrations: nat)

  /** Every summary id was handed out already, and every article row refers to a summary row. */
  predicate Valid(db: Db) {
    && (forall id :: id in db.summaries ==> id < db.nextId)
    && (forall key :: key in db.articles ==> db.articles[key].summaryId in db.summaries)
  }

  /** The row written for `a` under summary `summaryId`: `published_at` is passed as
      `a.published_at or None`. */
  function RowOf(a: Article, summaryId: nat): (row: Row)
    ensures row.publishedAt.None? <==> !Truthy(a.publishedAt)
    ensures a.publishedAt == Str("") ==> row.publishedAt == None
    ensures row.publishedAt.Some? ==> row.publishedAt.value == a.publishedAt
  {
    Row(summaryId, a.title, a.url, a.source,
        if Truthy(a.publishedAt) then Some(a.publishedAt) else None,
        a.raw)
  }

  /** The ids of a batch. */
  function Ids(batch: seq<Article>): set<string> {
    set k | 0 <= k < |batch| :: batch[k].id
  }

  /** Reference definition: the first article of `batch` with id `id`. */
  function FirstWithId(batch: seq<Article>, id: string): (r: Option<Article>)
    ensures r.None? <==> id !in Ids(batch)
    ensures r.Some? ==> r.value.id == id
  {
    if |batch| == 0 then None
    else if batch[0].id == id then Some(batch[0])
    else
      IdsCons(batch);
      FirstWithId(batch[1..], id)
  }

  /** The article inserts of one attempt: `INSERT ... ON CONFLICT (id) DO NOTHING` for each
      article in turn. */
  function InsertArticles(rows: map<string, Row>, summaryId: nat, batch: seq<Article>)
    : (r: map<string, Row>)
    ensures forall key :: key in rows ==> key in r && r[key] == rows[key]
    decreases |batch|
  {
    if |batch| == 0 then rows
    else InsertArticles(InsertOne(rows, summaryId, batch[0]), summaryId, batch[1..])
  }

  /** One insert with `ON CONFLICT (id) DO NOTHING`. */
  function InsertOne(rows: map<string, Row>, summaryId: nat, a: Article): (r: map<string, Row>)
    ensures r.Keys == rows.Keys + {a.id}
    ensures forall key :: key in rows ==> r[key] == rows[key]
    ensures a.id !in rows ==> r[a.id] == RowOf(a, summaryId)
  {
    if a.id in rows then rows else rows[a.id := RowOf(a, summaryId)]
  }

  /** The keys after the inserts: those present before and the ids of the batch. */
  lemma {:induction false} InsertArticlesKeys(rows: map<string, Row>, summaryId: nat, batch: seq<Article>)
    ensures InsertArticles(rows, summaryId, batch).Keys == rows.Keys + Ids(batch)
    decreases |batch|
  {
    if |batch| > 0 {
      InsertArticlesKeys(InsertOne(rows, summaryId, batch[0]), summaryId, batch[1..]);
      IdsCons(batch);
    }
  }

  /** Rows already present are left as they are. */
  lemma {:induction false} InsertArticlesKeepsRows(rows: map<string, Row>, summaryId: nat, batch: seq<Article>)
    ensures forall key :: key in rows ==>
      key in InsertArticles(rows, summaryId, batch) && InsertArticles(rows, summaryId, batch)[key] == rows[key]
    decreases |batch|
  {
    if |batch| > 0 {
      var rows' := InsertOne(rows, summaryId, batch[0]);
      InsertArticlesKeepsRows(rows', summaryId, batch[1..]);
      assert forall key :: key in rows ==> key in rows' && rows'[key] == rows[key];
    }
  }

  /** A row added by the inserts comes from the first article of the batch with its id. */
  lemma {:induction false} InsertArticlesFirstWins(rows: map<string, Row>, summaryId: nat, batch: seq<Article>)
    ensures var r := InsertArticles(rows, summaryId, batch);
      forall key :: key in r && key !in rows ==>
        FirstWithId(batch, key).Some? && r[key] == RowOf(FirstWithId(batch, key).value, summaryId)
    decreases |batch|
  {
    if |batch| > 0 {
      var a := batch[0];
      var rows' := InsertOne(rows, summaryId, a);
      var r := InsertArticles(rows', summaryId, batch[1..]);
      InsertArticlesFirstWins(rows', summaryId, batch[1..]);
      InsertArticlesKeepsRows(rows', summaryId, batch[1..]);
      forall key | key in r && key !in rows
        ensures FirstWithId(batch, key).Some? && r[key] == RowOf(FirstWithId(batch, key).value, summaryId)
      {
        if key == a.id {
          assert r[key] == rows'[key];
        } else {
          assert key !in rows';
        }
      }
    }
  }

  /** First write wins: after the inserts, the keys are those present before plus the ids of
      the batch; rows already present are left as they are; each added row comes from the first
      article carrying its id; and at most one row is added per article. */
  lemma InsertArticlesFirstWriteWins(rows: map<string, Row>, summaryId: nat, batch: seq<Article>)
    ensures var r := InsertArticles(rows, summaryId, batch);
      && r.Keys == rows.Keys + Ids(batch)
      && (forall key :: key in rows ==> r[key] == rows[key])
      && (forall key :: key in r && key !in rows ==>
            FirstWithId(batch, key).Some? && r[key] == RowOf(FirstWithId(batch, key).value, summaryId))
      && |r| <= |rows| + |batch|
  {
    InsertArticlesKeys(rows, summaryId, batch);
    InsertArticlesKeepsRows(rows, summaryId, batch);
    InsertArticlesFirstWins(rows, summaryId, batch);
    InsertArticlesBound(rows, summaryId, batch);
  }

  /** At most one row is added per article. */
  lemma {:induction false} InsertArticlesBound(rows: map<string, Row>, summaryId: nat, batch: seq<Article>)
    ensures |InsertArticles(rows, summaryId, batch)| <= |rows| + |batch|
    decreases |batch|
  {
    if |batch| > 0 {
      var a := batch[0];
      var rows' := InsertOne(rows, summaryId, a);
      InsertArticlesBound(rows', summaryId, batch[1..]);
      if a.id !in rows {
        assert rows'.Keys == rows.Keys + {a.id};
        assert |rows'.Keys| == |rows.Keys| + 1;
      }
    }
  }

  /** The ids of a non-empty batch: its head's id and the ids of its tail. */
  lemma IdsCons(batch: seq<Article>)
    requires |batch| > 0
    ensures Ids(batch) == {batch[0].id} + Ids(batch[1..])
  {
    forall k | 0 <= k < |batch[1..]| ensures batch[1..][k].id == batch[k + 1].id { }
  }

  /** Re-inserting articles whose ids are all present changes nothing. */
  lemma InsertKnownIdsIsNoOp(rows: map<string, Row>, summaryId: nat, batch: seq<Article>)
    requires Ids(batch) <= rows.Keys
    ensures InsertArticles(rows, summaryId, batch) == rows
  {
    var r := InsertArticles(rows, summaryId, batch);
    InsertArticlesFirstWriteWins(rows, summaryId, batch);
    assert r.Keys == rows.Keys;
  }

  /** Storing a batch a second time, under any summary, leaves every row as the first time. */
  lemma InsertArticlesIdempotent(rows: map<string, Row>, s1: nat, s2: nat, batch: seq<Article>)
    ensures InsertArticles(InsertArticles(rows, s1, batch), s2, batch) == InsertArticles(rows, s1, batch)
  {
    InsertArticlesKeys(rows, s1, batch);
    InsertKnownIdsIsNoOp(InsertArticles(rows, s1, batch), s2, batch);
  }

  /** The effect of one committed attempt: the migration (when asked for), one summary row under
      the next serial id, then the article inserts referring to it. A migration that commits is
      taken to leave existing rows as they are, as `CREATE TABLE IF NOT EXISTS` does; one that
      fails is the attempt's `psycopg2.Error`. */
  function Commit(db: Db, summary: string, batch: seq<Article>, initSchema: bool): (r: Db)
    ensures db.nextId in r.summaries && r.summaries[db.nextId] == summary
    ensures forall key :: key in db.articles ==> key in r.articles && r.articles[key] == db.articles[key]
    ensures initSchema <==> r.migrations > db.migrations
  {
    var id := db.nextId;
    Db(db.summaries[id := summary], id + 1, InsertArticles(db.articles, id, batch),
       db.migrations + (if initSchema then 1 else 0))
  }

  /** A committed attempt adds exactly one summary row, holding the summary, under an id not
      used before. */
  lemma CommitSummaryRow(db: Db, summary: string, batch: seq<Article>, initSchema: bool)
    requires Valid(db)
    ensures var r := Commit(db, summary, batch, initSchema);
      && db.nextId !in db.summaries
      && r.summaries == db.summaries[db.nextId := summary]
      && |r.summaries| == |db.summaries| + 1
      && db.nextId < r.nextId
      && r.migrations == db.migrations + (if initSchema then 1 else 0)
  {
    var r := Commit(db, summary, batch, initSchema);
    assert db.nextId !in db.summaries;
    assert r.summaries.Keys == db.summaries.Keys + {db.nextId};
  }

  /** A committed attempt changes the article rows as the first-write-wins inserts say, and
      every row it adds refers to the new summary. */
  lemma CommitArticleRows(db: Db, summary: string, batch: seq<Article>, initSchema: bool)
    ensures var r := Commit(db, summary, batch, initSchema);
      && r.articles.Keys == db.articles.Keys + Ids(batch)
      && (forall key :: key in db.articles ==> r.articles[key] == db.articles[key])
      && (forall key :: key in r.articles && key !in db.articles ==>
            r.articles[key].summaryId == db.nextId)
      && |r.articles| <= |db.articles| + |batch|
  {
    var r := Commit(db, summary, batch, initSchema);
    InsertArticlesFirstWriteWins(db.articles, db.nextId, batch);
    forall key | key in r.articles && key !in db.articles
      ensures r.articles[key].summaryId == db.nextId
    {
      assert r.articles[key] == RowOf(FirstWithId(batch, key).value, db.nextId);
    }
  }

  /** A committed attempt keeps the database valid. */
  lemma CommitKeepsValid(db: Db, summary: string, batch: seq<Article>, initSchema: bool)
    requires Valid(db)
    ensures Valid(Commit(db, summary, batch, initSchema))
  {
    var r := Commit(db, summary, batch, initSchema);
    CommitSummaryRow(db, summary, batch, initSchema);
    CommitArticleRows(db, summary, batch, initSchema);
    forall key | key in r.articles
      ensures r.articles[key].summaryId in r.summaries
    {
      if key in db.articles {
        assert r.articles[key] == db.articles[key];
      }
    }
  }

  function Pow2(n: nat): (p: nat)
    ensures p >= 1
  {
    if n == 0 then 1 else 2 * Pow2(n - 1)
  }

  /** `_sleep_backoff(attempt, base_seconds)`: the delay `base_seconds * 2 ** (attempt - 1)`. */
  function BackoffDelay(attempt: nat, base: nat): (d: nat)
    requires attempt >= 1
    ensures attempt == 1 ==> d == base
  {
    base * Pow2(attempt - 1)
  }

  /** Each wait is twice the one before. */
  lemma BackoffDoubles(attempt: nat, base: nat)
    requires attempt >= 1
    ensures BackoffDelay(attempt + 1, base) == 2 * BackoffDelay(attempt, base)
  {
    var p := Pow2(attempt - 1);
    assert Pow2(attempt) == 2 * p;
    assert BackoffDelay(attempt + 1, base) == base * (2 * p);
    assert base * (2 * p) == 2 * (base * p);
  }

  /** With the defaults, the waits after the first and second failed attempts are 2 and 4
      seconds. */
  lemma DefaultBackoffSchedule()
    ensures BackoffDelay(1, BackoffSeconds) == 2 && BackoffDelay(2, BackoffSeconds) == 4
  {
  }

  /** What the database does with one attempt. A failed attempt is rolled back. */
  datatype AttemptOutcome =
    | Commits
    /** A `psycopg2.Error`: logged and retried. */
    | DbFailure
    /** Any other exception (an unreadable migration file, say): not caught, so not retried. */
    | OtherFailure

  /** What one call of `store_results` returns or raises, the database afterwards, how many
      attempts it made and how long it slept between them. */
  datatype StoreRun = StoreRun(result: Result<(), Error>, db: Db, attempts: nat, sleeps: seq<nat>)

  /** The attempts from `attempt` on. `outcome(k)` is what the database does with attempt k. */
  function RetryFrom(
    attempt: nat, summary: string, batch: seq<Article>, initSchema: bool, db: Db,
    outcome: nat -> AttemptOutcome): (run: StoreRun)
    requires 1 <= attempt <= MaxAttempts
    ensures attempt <= run.attempts <= MaxAttempts
    ensures forall k :: attempt <= k < run.attempts ==> outcome(k) == DbFailure
    ensures outcome(run.attempts) == DbFailure ==> run.attempts == MaxAttempts
    ensures |run.sleeps| == run.attempts - attempt
    ensures forall k :: 0 <= k < |run.sleeps| ==> run.sleeps[k] == BackoffDelay(attempt + k, BackoffSeconds)
    ensures run.result.Success? <==> outcome(run.attempts) == Commits
    ensures run.result.Success? ==> run.db == Commit(db, summary, batch, initSchema)
    ensures run.result.Failure? ==> run.db == db
    ensures run.result.Failure? ==>
      run.result.error == (if outcome(run.attempts) == DbFailure then DatabaseError else OtherError)
    decreases MaxAttempts - attempt
  {
    match outcome(attempt)
    case Commits => StoreRun(Success(()), Commit(db, summary, batch, initSchema), attempt, [])
    case OtherFailure => StoreRun(Failure(OtherError), db, attempt, [])
    case DbFailure =>
      if attempt >= MaxAttempts then StoreRun(Failure(DatabaseError), db, attempt, [])
      else
        var rest := RetryFrom(attempt + 1, summary, batch, initSchema, db, outcome);
        rest.(sleeps := [BackoffDelay(attempt, BackoffSeconds)] + rest.sleeps)
  }

  /** `store_results(conn_str, summary, articles, init_schema)` against `db`. */
  function StoreResults(
    connStr: Option<string>, summary: string, batch: seq<Article>, initSchema: bool, db: Db,
    outcome: nat -> AttemptOutcome): (run: StoreRun)
    ensures !StrTruthy(connStr) ==> run == StoreRun(Failure(ValueError(ConnStrMissing)), db, 0, [])
    ensures StrTruthy(connStr) ==> 1 <= run.attempts <= MaxAttempts
    ensures StrTruthy(connStr) ==> forall k :: 1 <= k < run.attempts ==> outcome(k) == DbFailure
    ensures StrTruthy(connStr) && outcome(run.attempts) == DbFailure ==> run.attempts == MaxAttempts
    ensures StrTruthy(connStr) ==> (run.result.Success? <==> outcome(run.attempts) == Commits)
    ensures StrTruthy(connStr) && run.result.Failure? ==>
      run.result.error == (if outcome(run.attempts) == DbFailure then DatabaseError else OtherError)
    ensures StrTruthy(connStr) ==> |run.sleeps| == run.attempts - 1
    ensures StrTruthy(connStr) ==>
      forall k :: 0 <= k < |run.sleeps| ==> run.sleeps[k] == BackoffDelay(k + 1, BackoffSeconds)
    ensures run.result.Failure? ==> run.db == db
    ensures Valid(db) ==> Valid(run.db)
    ensures run.result.Success? ==>
      && run.db == Commit(db, summary, batch, initSchema)
      && forall k :: 1 <= k < run.attempts ==> outcome(k) == DbFailure
  {
    if !StrTruthy(connStr) then StoreRun(Failure(ValueError(ConnStrMissing)), db, 0, [])
    else
      var run := RetryFrom(1, summary, batch, initSchema, db, outcome);
      if Valid(db) then CommitKeepsValid(db, summary, batch, initSchema); run
      else run
  }

  /** The retry loop as the code writes it: try, and on a database error either re-raise (last
      attempt) or sleep and go round again. It computes what `StoreResults` says. */
  method StoreResultsLoop(
    connStr: Option<string>, summary: string, batch: seq<Article>, initSchema: bool, db: Db,
    outcome: nat -> AttemptOutcome) returns (run: StoreRun)
    ensures run == StoreResults(connStr, summary, batch, initSchema, db, outcome)
  {
    if !StrTruthy(connStr) {
      return StoreRun(Failure(ValueError(ConnStrMissing)), db, 0, []);
    }
    var attempt := 1;
    var sleeps: seq<nat> := [];
    ghost var spec := RetryFrom(1, summary, batch, initSchema, db, outcome);
    assert spec == WithSleepsBefore([], spec);
    while attempt < MaxAttempts && outcome(attempt) == DbFailure
      invariant 1 <= attempt <= MaxAttempts
      invariant spec == WithSleepsBefore(sleeps, RetryFrom(attempt, summary, batch, initSchema, db, outcome))
      decreases MaxAttempts - attempt
    {
      var d := BackoffDelay(attempt, BackoffSeconds);
      RetryStep(attempt, summary, batch, initSchema, db, outcome);
      SleepsBeforeConcat(sleeps, [d], RetryFrom(attempt + 1, summary, batch, initSchema, db, outcome));
      sleeps := sleeps + [d];
      attempt := attempt + 1;
    }
    var outcomeRun := LastAttempt(attempt, summary, batch, initSchema, db, outcome);
    run := WithSleepsBefore(sleeps, outcomeRun);
  }

  /** The run of the attempt that ends the loop, before any waits are added. */
  method LastAttempt(
    attempt: nat, summary: string, batch: seq<Article>, initSchema: bool, db: Db,
    outcome: nat -> AttemptOutcome) returns (run: StoreRun)
    requires 1 <= attempt <= MaxAttempts
    requires !(attempt < MaxAttempts && outcome(attempt) == DbFailure)
    ensures run == RetryFrom(attempt, summary, batch, initSchema, db, outcome)
  {
    match outcome(attempt) {
      case Commits =>
        run := StoreRun(Success(()), Commit(db, summary, batch, initSchema), attempt, []);
      case OtherFailure =>
        run := StoreRun(Failure(OtherError), db, attempt, []);
      case DbFailure =>
        run := StoreRun(Failure(DatabaseError), db, attempt, []);
    }
  }

  /** A retried database error waits `BackoffDelay(attempt)` and goes on with the next attempt. */
  lemma RetryStep(
    attempt: nat, summary: string, batch: seq<Article>, initSchema: bool, db: Db,
    outcome: nat -> AttemptOutcome)
    requires 1 <= attempt < MaxAttempts && outcome(attempt) == DbFailure
    ensures RetryFrom(attempt, summary, batch, initSchema, db, outcome)
      == WithSleepsBefore([BackoffDelay(attempt, BackoffSeconds)],
                          RetryFrom(attempt + 1, summary, batch, initSchema, db, outcome))
  {
  }

  lemma SleepsBeforeConcat(a: seq<nat>, b: seq<nat>, run: StoreRun)
    ensures WithSleepsBefore(a, WithSleepsBefore(b, run)) == WithSleepsBefore(a + b, run)
  {
    assert a + (b + run.sleeps) == (a + b) + run.sleeps;
  }

  /** `run` with the waits `pre` taken before it. */
  function WithSleepsBefore(pre: seq<nat>, run: StoreRun): StoreRun {
    run.(sleeps := pre + run.sleeps)
  }

  /** A failed attempt followed by a successful one commits exactly one summary row and the
      whole batch, after one wait of 2 seconds. */
  lemma FailThenSucceed(
    connStr: Option<string>, summary: string, batch: seq<Article>, initSchema: bool, db: Db,
    outcome: nat -> AttemptOutcome)
    requires StrTruthy(connStr) && Valid(db)
    requires outcome(1) == DbFailure && outcome(2) == Commits
    ensures var run := StoreResults(connStr, summary, batch, initSchema, db, outcome);
      && run.result.Success?
      && run.attempts == 2 && run.sleeps == [2]
      && |run.db.summaries| == |db.summaries| + 1
      && run.db.summaries[db.nextId] == summary
      && Ids(batch) <= run.db.articles.Keys
  {
    var run := StoreResults(connStr, summary, batch, initSchema, db, outcome);
    assert run.attempts == 2;
    DefaultBackoffSchedule();
    CommitSummaryRow(db, summary, batch, initSchema);
    CommitArticleRows(db, summary, batch, initSchema);
  }

  /** Three database errors in a row: the third is re-raised after waits of 2 and 4 seconds,
      and nothing is committed. */
  lemma AllAttemptsFail(
    connStr: Option<string>, summary: string, batch: seq<Article>, initSchema: bool, db: Db,
    outcome: nat -> AttemptOutcome)
    requires StrTruthy(connStr)
    requires outcome(1) == DbFailure && outcome(2) == DbFailure && outcome(3) == DbFailure
    ensures StoreResults(connStr, summary, batch, initSchema, db, outcome)
      == StoreRun(Failure(DatabaseError), db, 3, [2, 4])
  {
    var run := StoreResults(connStr, summary, batch, initSchema, db, outcome);
    assert run.attempts == 3;
    DefaultBackoffSchedule();
  }
}

=== FILE: summarize.dfy ===
/** The summariser: the credential guard, the chat-completions URL, the prompt built from the
    headlines, and the extraction of the generated text from the response. */
module Summarize {
  import opened Wrappers
  import opened Errors
  import opened Json
  import opened Text
  import opened Http
  import opened Fetch

  const DefaultApiVersion := "2024-02-15-preview"
  const SystemRole := "You are a market news analyst."

  /** The fixed instruction that opens every prompt. */
  const Instruction :=
    "Summarize the main market-relevant themes across these headlines. "
    + "Return 5-8 bullet points and a 1-sentence overall takeaway.\n\n"

  /** Everything before the first headline. */
  const Preamble := Instruction + "Headlines:\n"

  /** The prompt line of one article: `f"- {a.title} ({a.source})"`. */
  function HeadlineLine(a: Article, render: Value -> string): string {
    "- " + PyStr(a.title, render) + " (" + PyStr(a.source, render) + ")"
  }

  /** One line per article, in input order. */
  function HeadlineLines(articles: seq<Article>, render: Value -> string): (lines: seq<string>)
    ensures |lines| == |articles|
    ensures forall k :: 0 <= k < |articles| ==> lines[k] == HeadlineLine(articles[k], render)
  {
    if |articles| == 0 then []
    else [HeadlineLine(articles[0], render)] + HeadlineLines(articles[1..], render)
  }

  /** `_format_prompt(articles)`. */
  function Prompt(articles: seq<Article>, render: Value -> string): (p: string)
    ensures |Preamble| <= |p| && p[..|Preamble|] == Preamble
    ensures articles == [] ==> p == Preamble
  {
    Preamble + Join(HeadlineLines(articles, render), "\n")
  }

  /** Appending to a joined list adds the separator only when the list was not empty. */
  lemma {:induction false} JoinSnoc(lines: seq<string>, line: string, sep: string)
    ensures Join(lines + [line], sep) == Join(lines, sep) + (if |lines| == 0 then "" else sep) + line
  {
    if |lines| == 1 {
      assert lines + [line] == [lines[0], line];
    } else if |lines| > 1 {
      assert (lines + [line])[1..] == lines[1..] + [line];
      JoinSnoc(lines[1..], line, sep);
    }
  }

  /** The prompt grows one headline at a time: an article appended to the list appends its line,
      after a newline unless it is the first. The prompt for no articles is the preamble alone. */
  lemma PromptSnoc(articles: seq<Article>, a: Article, render: Value -> string)
    ensures Prompt([], render) == Preamble
    ensures Prompt(articles + [a], render)
      == Prompt(articles, render) + (if |articles| == 0 then "" else "\n") + HeadlineLine(a, render)
  {
    var lines := HeadlineLines(articles, render);
    HeadlineLinesSnoc(articles, a, render);
    PrefixJoinSnoc(Preamble, lines, HeadlineLine(a, render), "\n");
  }

  /** `JoinSnoc` behind a fixed prefix. */
  lemma PrefixJoinSnoc(p: string, lines: seq<string>, line: string, sep: string)
    ensures p + Join(lines + [line], sep) == p + Join(lines, sep) + (if |lines| == 0 then "" else sep) + line
  {
    JoinSnoc(lines, line, sep);
  }

  /** An article appended to the list appends its line. */
  lemma HeadlineLinesSnoc(articles: seq<Article>, a: Article, render: Value -> string)
    ensures HeadlineLines(articles + [a], render) == HeadlineLines(articles, render) + [HeadlineLine(a, render)]
  {
    var l := HeadlineLines(articles + [a], render);
    var r := HeadlineLines(articles, render) + [HeadlineLine(a, render)];
    forall k | 0 <= k < |l|
      ensures l[k] == r[k]
    {
      assert (articles + [a])[k] == if k < |articles| then articles[k] else a;
    }
  }

  /** The headline block can be read back: when no title or source contains a newline,
      splitting what follows the preamble on newlines gives exactly one line per article, in
      order. */
  lemma PromptHeadlinesReadBack(articles: seq<Article>, render: Value -> string)
    requires |articles| >= 1
    requires forall k :: 0 <= k < |articles| ==>
      '\n' !in PyStr(articles[k].title, render) && '\n' !in PyStr(articles[k].source, render)
    // The preamble facts are `Prompt`'s own; they are repeated so that the slice below reads alone.
    ensures |Preamble| <= |Prompt(articles, render)|
    ensures Prompt(articles, render)[..|Preamble|] == Preamble
    ensures Split(Prompt(articles, render)[|Preamble|..], '\n') == HeadlineLines(articles, render)
  {
    var lines := HeadlineLines(articles, render);
    forall k | 0 <= k < |lines|
      ensures '\n' !in lines[k]
    {
      HeadlineLineNoNewline(articles[k], render);
    }
    SplitJoin(lines, '\n');
    var p := Prompt(articles, render);
    assert p == Preamble + Join(lines, "\n");
    assert p[..|Preamble|] == Preamble;
    assert p[|Preamble|..] == Join(lines, "\n");
  }

  lemma HeadlineLineNoNewline(a: Article, render: Value -> string)
    requires '\n' !in PyStr(a.title, render) && '\n' !in PyStr(a.source, render)
    ensures '\n' !in HeadlineLine(a, render)
  {
    var t, s := PyStr(a.title, render), PyStr(a.source, render);
    assert HeadlineLine(a, render) == "- " + t + " (" + s + ")";
    assert '\n' !in "- " && '\n' !in " (" && '\n' !in ")";
  }

  /** The path appended to the endpoint. */
  function DeploymentPath(deployment: string): string {
    "/openai/deployments/" + deployment + "/chat/completions"
  }

  /** `f"{endpoint.rstrip('/')}/openai/deployments/{deployment}/chat/completions"`. */
  function ChatUrl(endpoint: string, deployment: string): (url: string)
    ensures var base := TrimEnd(endpoint, {'/'});
      && url == base + DeploymentPath(deployment)
      && base == endpoint[..|base|]
      && (forall k :: |base| <= k < |endpoint| ==> endpoint[k] == '/')
      && (base == [] || base[|base| - 1] != '/')
  {
    TrimEnd(endpoint, {'/'}) + DeploymentPath(deployment)
  }

  /** Trailing slashes on the endpoint do not change the URL. */
  lemma ChatUrlIgnoresTrailingSlashes(endpoint: string, slashes: string, deployment: string)
    requires AllIn(slashes, {'/'})
    ensures ChatUrl(endpoint + slashes, deployment) == ChatUrl(endpoint, deployment)
  {
    TrimEndAppend(endpoint, slashes, {'/'});
  }

  /** The POST request `synthesize_with_azure_openai` sends. */
  function ChatRequest(endpoint: string, apiKey: string, deployment: string, apiVersion: string, prompt: string)
    : (r: Request)
    ensures r.verb == Post && r.url == ChatUrl(endpoint, deployment)
    ensures Lookup(r.query, "api-version") == Some(apiVersion)
    ensures Lookup(r.headers, "api-key") == Some(apiKey)
    ensures r.messages == [Message("system", SystemRole), Message("user", prompt)]
  {
    Request(
      Post,
      ChatUrl(endpoint, deployment),
      [("api-version", apiVersion)],
      [("Content-Type", "application/json"), ("api-key", apiKey)],
      [Message("system", SystemRole), Message("user", prompt)])
  }

  /** Reference shape of a usable completion: `data["choices"][0]["message"]["content"]` exists
      along a dict, a non-empty list, a dict and a dict, and is a string. */
  predicate WellShaped(data: Value) {
    && data.Obj? && "choices" in data.fields
    && var choices := data.fields["choices"];
    && choices.Arr? && |choices.items| > 0
    && var first := choices.items[0];
    && first.Obj? && "message" in first.fields
    && var message := first.fields["message"];
    && message.Obj? && "content" in message.fields
    && message.fields["content"].Str?
  }

  /** The generated text of a well-shaped completion. */
  function Content(data: Value): string
    requires WellShaped(data)
  {
    data.fields["choices"].items[0].fields["message"].fields["content"].s
  }

  /** `data["choices"][0]["message"]["content"]`, raising what Python raises on a shape
      mismatch: `KeyError`, `IndexError` or `TypeError`. */
  function ContentField(data: Value): (r: Result<Value, Error>)
    ensures r.Success? ==> (r.value.Str? <==> WellShaped(data))
    ensures r.Success? && r.value.Str? ==> r.value.s == Content(data)
    ensures r.Failure? ==> !WellShaped(data) && r.error in {KeyError, IndexError, TypeError}
    ensures !data.Obj? ==> r == Failure(TypeError)
    ensures data.Obj? && "choices" !in data.fields ==> r == Failure(KeyError)
    ensures data.Obj? && "choices" in data.fields && data.fields["choices"] == Arr([]) ==>
      r == Failure(IndexError)
  {
    var choices :- Subscript(data, Key("choices"));
    var first :- Subscript(choices, Pos(0));
    var message :- Subscript(first, Key("message"));
    Subscript(message, Key("content"))
  }

  /** `data["choices"][0]["message"]["content"].strip()`: the shape errors of `ContentField`, or
      `AttributeError` when the content is not a string. */
  function ExtractContent(data: Value): (r: Result<string, Error>)
    ensures r.Success? <==> WellShaped(data)
    ensures r.Success? ==> r.value == Strip(Content(data))
    ensures !data.Obj? ==> r == Failure(TypeError)
    ensures data.Obj? && "choices" !in data.fields ==> r == Failure(KeyError)
    ensures data.Obj? && "choices" in data.fields && data.fields["choices"] == Arr([]) ==>
      r == Failure(IndexError)
    ensures ContentField(data).Success? && !ContentField(data).value.Str? ==>
      r == Failure(AttributeError)
    ensures r.Failure? ==> r.error in {KeyError, IndexError, TypeError, AttributeError}
  {
    var content :- ContentField(data);
    if content.Str? then Success(Strip(content.s)) else Failure(AttributeError)
  }

  /** What one call of `synthesize_with_azure_openai` returns or raises, with the requests it
      sent. */
  datatype SynthRun = SynthRun(result: Result<string, Error>, sent: seq<Request>)

  /** `synthesize_with_azure_openai(endpoint, api_key, deployment, articles, api_version)`;
      `llm` is the remote side. */
  function Synthesize(
    endpoint: Option<string>, apiKey: Option<string>, deployment: Option<string>,
    articles: seq<Article>, apiVersion: string,
    llm: Request -> Outcome, render: Value -> string): (run: SynthRun)
    ensures !(StrTruthy(endpoint) && StrTruthy(apiKey) && StrTruthy(deployment)) ==>
      run == SynthRun(Failure(ValueError(AzureConfigMissing)), [])
    ensures StrTruthy(endpoint) && StrTruthy(apiKey) && StrTruthy(deployment) ==>
      run.sent == [ChatRequest(endpoint.value, apiKey.value, deployment.value, apiVersion, Prompt(articles, render))]
    ensures run.result.Success? ==>
      && |run.sent| == 1
      && var reply := Receive(llm(run.sent[0]));
      && reply.Success? && WellShaped(reply.value)
      && run.result.value == Strip(Content(reply.value))
    ensures (StrTruthy(endpoint) && StrTruthy(apiKey) && StrTruthy(deployment)
             && Receive(llm(run.sent[0])).Success?) ==>
      run.result == ExtractContent(Receive(llm(run.sent[0])).value)
    ensures (StrTruthy(endpoint) && StrTruthy(apiKey) && StrTruthy(deployment)
             && Receive(llm(run.sent[0])).Failure?) ==>
      run.result == Receive(llm(run.sent[0])).PropagateFailure()
  {
    if !StrTruthy(endpoint) || !StrTruthy(apiKey) || !StrTruthy(deployment) then
      SynthRun(Failure(ValueError(AzureConfigMissing)), [])
    else
      var request := ChatRequest(endpoint.value, apiKey.value, deployment.value, apiVersion, Prompt(articles, render));
      var result := match Receive(llm(request))
        case Failure(e) => Failure(e)
        case Success(data) => ExtractContent(data);
      SynthRun(result, [request])
  }
}

=== FILE: text.dfy ===
/** The string operations the pipeline uses: `str.strip()`, `str.rstrip(chars)`,
    `sep.join(lines)`, `s.split(sep)` and ASCII `str.lower()`. */
module Text {

  /** The characters for which Python's `str.isspace()` holds; `str.strip()` removes these. */
  const Whitespace: set<char> := {
    '\t', '\n', '\U{B}', '\U{C}', '\r', '\U{1C}', '\U{1D}', '\U{1E}', '\U{1F}', ' ',
    '\U{85}', '\U{A0}', '\U{1680}',
    '\U{2000}', '\U{2001}', '\U{2002}', '\U{2003}', '\U{2004}', '\U{2005}',
    '\U{2006}', '\U{2007}', '\U{2008}', '\U{2009}', '\U{200A}',
    '\U{2028}', '\U{2029}', '\U{202F}', '\U{205F}', '\U{3000}'
  }

  predicate AllIn(s: string, cs: set<char>) {
    forall k :: 0 <= k < |s| ==> s[k] in cs
  }

  /** Every character of `s` at a position in `[lo, hi)` is in `cs`. */
  predicate RunIn(s: string, lo: int, hi: int, cs: set<char>) {
    forall k :: lo <= k < hi && 0 <= k < |s| ==> s[k] in cs
  }

  /** Python's `s.rstrip(chars)`: the longest prefix of `s` that does not end in `cs`. */
  function TrimEnd(s: string, cs: set<char>): (r: string)
    ensures |r| <= |s| && r == s[..|r|]
    ensures RunIn(s, |r|, |s|, cs)
    ensures r == [] || r[|r| - 1] !in cs
    decreases |s|
  {
    if |s| > 0 && s[|s| - 1] in cs then TrimEnd(s[..|s| - 1], cs) else s
  }

  /** Python's `s.lstrip(chars)`: the longest suffix of `s` that does not start in `cs`. */
  function TrimStart(s: string, cs: set<char>): (r: string)
    ensures |r| <= |s| && r == s[|s| - |r|..]
    ensures RunIn(s, 0, |s| - |r|, cs)
    ensures r == [] || r[0] !in cs
    decreases |s|
  {
    if |s| > 0 && s[0] in cs then TrimStart(s[1..], cs) else s
  }

  /** Python's `s.strip(chars)`: `s` without its leading and trailing characters of `cs`. */
  function StripChars(s: string, cs: set<char>): (r: string)
    ensures |r| <= |s|
    ensures r == [] || (r[0] !in cs && r[|r| - 1] !in cs)
  {
    var t := TrimStart(s, cs);
    var r := TrimEnd(t, cs);
    assert r == [] || r[0] == t[0];
    r
  }

  /** `r` is the piece of `s` that starts where the suffix `t` starts, and only characters of `cs`
      come before and after it. */
  predicate Placed(s: string, cs: set<char>, t: string, r: string) {
    var i := |s| - |t|;
    && 0 <= i
    && i + |r| <= |s|
    && r == s[i..i + |r|]
    && RunIn(s, 0, i, cs)
    && RunIn(s, i + |r|, |s|, cs)
  }

  /** Where the stripped piece sits: right after the leading run of `cs` (what `lstrip` removes),
      and followed only by characters of `cs`. */
  lemma {:induction false} StripCharsPlacement(s: string, cs: set<char>)
    ensures Placed(s, cs, TrimStart(s, cs), StripChars(s, cs))
  {
    StripCharsTrims(s, cs);
    TrimmedPlacement(s, cs, TrimStart(s, cs), StripChars(s, cs));
  }

  /** `strip` is `lstrip` followed by `rstrip`. */
  lemma StripCharsTrims(s: string, cs: set<char>)
    ensures StripChars(s, cs) == TrimEnd(TrimStart(s, cs), cs)
  {
  }

  /** `StripPieces` for the actual `lstrip` and `rstrip` results. */
  lemma TrimmedPlacement(s: string, cs: set<char>, t: string, r: string)
    requires t == TrimStart(s, cs) && r == TrimEnd(t, cs)
    ensures Placed(s, cs, t, r)
  {
    StripPieces(s, t, r, cs);
  }

  /** The trimmed-at-both-ends piece sits in `s` after the leading run and before a run of `cs`. */
  lemma {:induction false} StripPieces(s: string, t: string, r: string, cs: set<char>)
    requires |t| <= |s| && t == s[|s| - |t|..]
    requires RunIn(s, 0, |s| - |t|, cs)
    requires |r| <= |t| && r == t[..|r|]
    requires RunIn(t, |r|, |t|, cs)
    ensures var i := |s| - |t|;
      && i + |r| <= |s|
      && r == s[i..i + |r|]
      && RunIn(s, 0, i, cs)
      && RunIn(s, i + |r|, |s|, cs)
  {
    var i := |s| - |t|;
    forall k | i + |r| <= k < |s|
      ensures s[k] in cs
    {
      assert s[k] == t[k - i];
    }
  }

  /** A string that neither starts nor ends in `cs` is left as it is. */
  lemma StripCharsNoEdges(s: string, cs: set<char>)
    requires s == [] || (s[0] !in cs && s[|s| - 1] !in cs)
    ensures StripChars(s, cs) == s
  {
    assert TrimStart(s, cs) == s;
    assert TrimEnd(s, cs) == s;
  }

  /** Stripping a stripped string changes nothing. */
  lemma StripCharsIdempotent(s: string, cs: set<char>)
    ensures StripChars(StripChars(s, cs), cs) == StripChars(s, cs)
  {
    StripCharsNoEdges(StripChars(s, cs), cs);
  }

  /** Python's `s.strip()`. */
  function Strip(s: string): string {
    StripChars(s, Whitespace)
  }

  /** `TrimEnd` is determined by its contract: any prefix of `s` that leaves only characters of
      `cs` behind and does not itself end in one is `TrimEnd(s, cs)`. */
  lemma TrimEndUnique(s: string, cs: set<char>, r: string)
    requires |r| <= |s| && r == s[..|r|]
    requires RunIn(s, |r|, |s|, cs)
    requires r == [] || r[|r| - 1] !in cs
    ensures r == TrimEnd(s, cs)
  {
    var t := TrimEnd(s, cs);
    assert |r| >= |t|;
    assert |t| >= |r|;
  }

  /** Stripping twice is stripping once. */
  lemma TrimEndIdempotent(s: string, cs: set<char>)
    ensures TrimEnd(TrimEnd(s, cs), cs) == TrimEnd(s, cs)
  {
    var t := TrimEnd(s, cs);
    TrimEndUnique(t, cs, t);
  }

  /** Characters of `cs` appended to `s` are all removed again. */
  lemma TrimEndAppend(s: string, tail: string, cs: set<char>)
    requires AllIn(tail, cs)
    ensures TrimEnd(s + tail, cs) == TrimEnd(s, cs)
  {
    var t := TrimEnd(s, cs);
    assert (s + tail)[..|t|] == t;
    TrimEndUnique(s + tail, cs, t);
  }

  /** `TrimStart` is determined by its contract: any suffix of `s` that leaves only characters
      of `cs` before it and does not itself start with one is `TrimStart(s, cs)`. */
  lemma TrimStartUnique(s: string, cs: set<char>, r: string)
    requires |r| <= |s| && r == s[|s| - |r|..]
    requires RunIn(s, 0, |s| - |r|, cs)
    requires r == [] || r[0] !in cs
    ensures r == TrimStart(s, cs)
  {
    var t := TrimStart(s, cs);
    assert |r| >= |t|;
    assert |t| >= |r|;
  }

  /** Characters of `cs` put in front of `s` are all removed again. */
  lemma TrimStartPrepend(head: string, s: string, cs: set<char>)
    requires AllIn(head, cs)
    ensures TrimStart(head + s, cs) == TrimStart(s, cs)
  {
    var t := TrimStart(s, cs);
    var hs := head + s;
    assert hs[|hs| - |t|..] == t;
    forall k | 0 <= k < |hs| - |t|
      ensures hs[k] in cs
    {
      if k >= |head| {
        assert hs[k] == s[k - |head|];
      }
    }
    TrimStartUnique(hs, cs, t);
  }

  /** A string of `cs` characters followed by more of them is still all `cs`. */
  lemma AllInAppend(a: string, b: string, cs: set<char>)
    requires AllIn(a, cs) && AllIn(b, cs)
    ensures AllIn(a + b, cs)
  {
    forall k | 0 <= k < |a + b|
      ensures (a + b)[k] in cs
    {
      if k >= |a| {
        assert (a + b)[k] == b[k - |a|];
      }
    }
  }

  /** Appending to a string that does not strip away entirely keeps the appended part. */
  lemma TrimStartAppend(s: string, tail: string, cs: set<char>)
    requires TrimStart(s, cs) != []
    ensures TrimStart(s + tail, cs) == TrimStart(s, cs) + tail
  {
    var u := TrimStart(s, cs);
    var st := s + tail;
    assert st[|st| - |u + tail|..] == u + tail;
    assert RunIn(st, 0, |st| - |u + tail|, cs);
    TrimStartUnique(st, cs, u + tail);
  }

  /** `strip` of a string that `lstrip` empties is empty, whatever characters of `cs` follow. */
  lemma StripCharsBlank(s: string, tail: string, cs: set<char>)
    requires TrimStart(s, cs) == [] && AllIn(tail, cs)
    ensures TrimStart(s + tail, cs) == []
  {
    assert AllIn(s, cs);
    AllInAppend(s, tail, cs);
    assert s + tail == (s + tail) + [];
    TrimStartPrepend(s + tail, [], cs);
  }

  /** Padding a string with characters of `cs` on either side does not change what `strip`
      returns. */
  lemma {:induction false} StripCharsPadded(head: string, s: string, tail: string, cs: set<char>)
    requires AllIn(head, cs) && AllIn(tail, cs)
    ensures StripChars(head + s + tail, cs) == StripChars(s, cs)
  {
    var st := s + tail;
    assert head + s + tail == head + st;
    TrimStartPrepend(head, st, cs);
    StripCharsTrims(head + st, cs);
    StripCharsTrims(s, cs);
    if TrimStart(s, cs) == [] {
      StripCharsBlank(s, tail, cs);
    } else {
      TrimStartAppend(s, tail, cs);
      TrimEndAppend(TrimStart(s, cs), tail, cs);
    }
  }

  /** Python's `sep.join(lines)`. */
  function Join(lines: seq<string>, sep: string): string {
    if |lines| == 0 then ""
    else if |lines| == 1 then lines[0]
    else lines[0] + sep + Join(lines[1..], sep)
  }

  /** Python's `s.split(sep)` for a one-character separator; `"".split(sep)` is `[""]`. */
  function Split(s: string, sep: char): (parts: seq<string>)
    ensures |parts| >= 1
  {
    if |s| == 0 then [""]
    else
      var rest := Split(s[1..], sep);
      if s[0] == sep then [""] + rest else [[s[0]] + rest[0]] + rest[1..]
  }

  /** A piece free of the separator splits to itself. */
  lemma {:induction false} SplitNoSeparator(a: string, sep: char)
    requires sep !in a
    ensures Split(a, sep) == [a]
  {
    if |a| > 0 {
      SplitNoSeparator(a[1..], sep);
      assert [a[0]] + a[1..] == a;
    }
  }

  /** Splitting at the first separator peels off the text before it. */
  lemma {:induction false} SplitAtSeparator(a: string, sep: char, rest: string)
    requires sep !in a
    ensures Split(a + [sep] + rest, sep) == [a] + Split(rest, sep)
  {
    if |a| == 0 {
      assert a + [sep] + rest == [sep] + rest;
      assert ([sep] + rest)[1..] == rest;
    } else {
      assert (a + [sep] + rest)[1..] == a[1..] + [sep] + rest;
      SplitAtSeparator(a[1..], sep, rest);
      assert [a[0]] + a[1..] == a;
    }
  }

  /** `split` undoes `join` when no piece contains the separator. */
  lemma {:induction false} SplitJoin(lines: seq<string>, sep: char)
    requires |lines| >= 1
    requires forall k :: 0 <= k < |lines| ==> sep !in lines[k]
    ensures Split(Join(lines, [sep]), sep) == lines
  {
    if |lines| == 1 {
      SplitNoSeparator(lines[0], sep);
    } else {
      SplitJoin(lines[1..], sep);
      SplitAtSeparator(lines[0], sep, Join(lines[1..], [sep]));
      assert [lines[0]] + lines[1..] == lines;
    }
  }

  /** `str.lower()` on one character, for the ASCII letters. */
  function LowerChar(c: char): char {
    if 'A' <= c <= 'Z' then (c as int + 32) as char else c
  }

  /** `str.lower()`, for the ASCII letters. */
  function Lower(s: string): (r: string)
    ensures |r| == |s|
    ensures forall k :: 0 <= k < |s| ==> r[k] == LowerChar(s[k])
  {
    if |s| == 0 then "" else [LowerChar(s[0])] + Lower(s[1..])
  }
}

=== FILE: wrappers.dfy ===
/** Option and Result types used by every stage of the pipeline model. */
module Wrappers {

  /** A value that may be missing: an unset environment variable, an absent key. */
  datatype Option<+T> = None | Some(value: T) {

    /** The value, or `default` when there is none. */
    function GetOr(default: T): T {
      match this
      case Some(v) => v
      case None => default
    }
  }

  /** The outcome of an operation that either returns a value or raises an error. */
  datatype Result<+R, +E> = Success(value: R) | Failure(error: E) {

    predicate IsFailure() {
      Failure?
    }

    function PropagateFailure<U>(): Result<U, E>
      requires Failure?
    {
      Failure(error)
    }

    function Extract(): R
      requires Success?
    {
      value
    }
  }
}
